=== FILE: README.md ===
# organize_pdfs in Dafny

A model of `organize_pdfs.py`, a small command-line tool with two jobs:

- **organise**: move every PDF of a directory whose name starts with a course-style
  prefix (`CSCS318-003.pdf`) into the sibling folder `<prefix> PDFs/`, creating the
  folder on demand and never overwriting a file already filed there;
- **combine**: for each folder the user names, merge its PDFs, in natural order, into
  `<folder>/<folder name>.pdf`. A folder without PDFs of its own stands for its
  immediate subfolders that have some. The list of folders is de-duplicated, and
  the tool refuses to overwrite an existing output.

The filesystem is an immutable tree (`Tree.Entry = File(name, data) | Dir(name,
children)`). A directory listing is the sequence of its children in `iterdir()` order.
Each failure that ends the program, a `SystemExit` or the `FileExistsError` of
`mkdir`, is a constructor of `Errors.Error`. The program's printed lines become `Organize.Step` values.

Modules, lowest first:

- `Errors`: the failures, plus `Result` and `Option`.
- `Names`: ASCII character classes, lower-casing, substring search, and the `pathlib`
  stem/suffix rule.
- `Prefix`: `PREFIX_REGEX` as a function on strings, and the folder name built from its match.
- `Seqs`: associativity of concatenation, splitting a sequence, and flattening a sequence of sequences.
- `Tree`: listings, lookups, removal and replacement of entries, selecting entries in listing order, and the multiset of files below a node.
- `Organize`: one filing step (`FileInto`), the loop over the listing (`RunListing`), and `organize` itself.
- `Lex`, `StableSort`: lexicographic order on sequences, and a stable insertion sort by key.
- `NaturalSort`: the key of `natural_sort` (`re.split(r"(\d+)")` and the chunk tuple) and the sort itself.
- `Merge`: `is_merge_candidate`, and the checks `combine_pdfs_in_folder` makes before it calls the PDF library.
- `Dedup`: first-occurrence de-duplication, as a reference function and as the `seen`-set loop, and the
  answers collected by `select_multiple_directories`.
- `Targets`: `resolve_combine_targets`.
- `Cli`: the decisions `main` makes from the flags and the environment, and their outcome.

The only environment the model sees comes in as parameters:

- whether PyPDF2 imported (`mergerAvailable`);
- whether Tk imported;
- the answers the folder dialogs would give;
- the line typed at the prompt.

## Model

| member | source | states |
|---|---|---|
| Prefix.PrefixMatch | organize_pdfs.py:40 | a match is at least two characters long, contains no hyphen, and is followed in the name by a hyphen |
| Prefix.PrefixMatchIff | organize_pdfs.py:40 | the regex matches with prefix `p` if and only if the name is `p + "-" + rest` with `p` one or more ASCII letters followed by one or more digits (both directions) |
| Prefix.NoMatchIff | organize_pdfs.py:51-54 | the file is skipped as unprefixed exactly when no prefix of that form exists |
| Prefix.TargetFolder | organize_pdfs.py:56-57 | there is a target folder iff the regex matches, and its name is the extracted prefix followed by ` PDFs` |
| Prefix.FolderIsNotPdf | organize_pdfs.py:48-57 | a target folder's name never has a `.pdf` suffix, so a folder the organiser creates is never taken for a PDF |
| Names.StemSuffixSplit | organize_pdfs.py:291-294 | stem followed by suffix gives back the name; a non-empty suffix is a dot, then at least one character with no further dot, and leaves a non-empty stem |
| Names.IsPdfNameEndsWith | organize_pdfs.py:48 | `suffix.lower() == ".pdf"` holds iff the name is at least one character followed by `.pdf` in any case |
| Names.PdfNameStem | organize_pdfs.py:138 | the output file `<name>.pdf` has stem `<name>` and suffix `.pdf` (for an empty folder name the stem is `.pdf`) |
| Organize.FileInto | organize_pdfs.py:56-66 | one file: `mkdir` fails iff a regular file holds the folder name; if the folder already holds the name nothing moves; otherwise the file leaves the directory and is appended to the folder; files are conserved and no other name changes |
| Organize.RunConserves | organize_pdfs.py:47-66 | the loop loses, duplicates and overwrites no file, and keeps names unique |
| Organize.RunFrame | organize_pdfs.py:47-58 | an entry whose name no prefixed PDF has and no prefixed PDF's folder has is unchanged by the loop, whether it completes or stops at a failing `mkdir` |
| Organize.RunKeeps | organize_pdfs.py:47-58 | whether the loop completes or stops at a failing `mkdir`: an entry whose name no prefixed PDF has and no prefixed PDF's folder has is unchanged (directories named `*.pdf` included); a prefix folder stays a directory, and every entry inside it other than a moved PDF is unchanged |
| Organize.RunKeepsFile | organize_pdfs.py:48-54 | a file the loop never visits as a prefixed PDF stays in the directory |
| Organize.RunCrashSound | organize_pdfs.py:58 | the loop stops early only with `FolderIsAFile`, and only when some prefixed PDF's folder name is held by a regular file |
| Organize.RunCrashComplete | organize_pdfs.py:58 | if some prefixed PDF's folder name is held by a regular file, the loop stops early |
| Organize.RunFate | organize_pdfs.py:56-66 | after a full run each prefixed PDF's folder exists; a PDF whose name the folder already held is still in the directory and the folder's entry is unchanged; any other is in its folder and gone from the directory |
| Organize.Organize | organize_pdfs.py:43-66 | a path that is not a directory fails with `DirectoryNotFound` and changes nothing; otherwise the files below are conserved and every non-PDF or unprefixed file stays in place |
| Organize.OrganizeStops | organize_pdfs.py:47-58 | `organize` stops part-way iff some prefixed PDF's folder name is held by a regular file |
| Organize.OrganizeFiles | organize_pdfs.py:56-66 | after a complete run each prefixed PDF's folder exists, even when the move was skipped; the PDF is still in the directory iff the folder already held its name, and it never overwrites that entry |
| NaturalSort.Split | organize_pdfs.py:279 | `re.split(r"(\d+)", name)` returns pieces that concatenate to the name, alternate maximal text runs and digit runs, and begin and end with text |
| NaturalSort.SplitUnique | organize_pdfs.py:279 | any sequence of pieces with that shape is exactly what `Split` returns |
| NaturalSort.KeyAlternates | organize_pdfs.py:279-284 | a key has odd length, with numbers at odd positions and text at even ones, so comparing two keys never compares a number with a string |
| NaturalSort.KeyOrder | organize_pdfs.py:286 | tuple comparison of keys is irreflexive, transitive and total |
| NaturalSort.TextOnlyCompare | organize_pdfs.py:283 | names without digits compare as their lower-cased forms do, and have equal keys iff the lower-cased forms are equal |
| NaturalSort.SplitLower | organize_pdfs.py:279 | lower-casing a name moves no boundary of `re.split(r"(\d+)", ...)`: the runs of the lower-cased name are the lower-cased runs |
| NaturalSort.KeyIgnoresCase | organize_pdfs.py:279-284 | a name and its lower-cased form have the same key, digits included |
| NaturalSort.CaseInsensitive | organize_pdfs.py:279-286 | names whose lower-cased forms are equal have equal keys, so neither sorts before the other |
| NaturalSort.DigitRunCompare | organize_pdfs.py:279-284 | names `t + d + u` that differ only in the digit run `d`, with no digit in `t` and `u` empty or starting with a non-digit, compare by the runs' numeric values and tie exactly when the values are equal (so `a2.pdf` precedes `a10.pdf`) |
| NaturalSort.SharedRunsCompare | organize_pdfs.py:279-286 | a shared leading text run and digit run do not affect the comparison: names compare as what follows them does (so `a1b2` precedes `a1b10`) |
| NaturalSort.NumericExample | organize_pdfs.py:275-286 | `a2` sorts before `a10` |
| NaturalSort.PdfNumericExample | organize_pdfs.py:139 | `a2.pdf` is merged before `a10.pdf` |
| NaturalSort.StableExample | organize_pdfs.py:286 | `f01` and `f1` have equal keys and keep their input order, in both input orders |
| NaturalSort.NaturalSortCorrect | organize_pdfs.py:275-286 | `natural_sort` returns a permutation of its input, non-decreasing by key, in which names with equal keys keep their input order |
| StableSort.SortCorrect | organize_pdfs.py:286 | `sorted(xs, key=...)` is a permutation, ordered by key, and stable |
| Merge.CandidateExclusions | organize_pdfs.py:289-302 | the output file `<folder>.pdf`, in any mix of case, is never a candidate; a candidate is a regular file ending in `.pdf` in any case whose name does not contain `combined.pdf` |
| Merge.CandidateIff | organize_pdfs.py:289-302 | a file is a candidate iff its name is one or more characters then `.pdf` in any case, and those characters lower-cased differ from the output's stem (`.pdf` for an empty folder name) and contain neither `combined` nor `merged` |
| Merge.Candidates | organize_pdfs.py:139 | a name is listed iff some entry of the folder with that name passes `is_merge_candidate` |
| Merge.CandidatesOrder | organize_pdfs.py:139 | the names are listed in listing order: the `i`-th name belongs to the `i`-th entry that passes `is_merge_candidate`, so each such entry gives exactly one name |
| Merge.OutputNotCandidate | organize_pdfs.py:138-139 | the output file is never one of its own inputs |
| Merge.PlanListing | organize_pdfs.py:138-144 | no candidates fails with "No PDFs" before the overwrite check; an existing output fails with `OutputExists`; otherwise the output is absent and the inputs are the candidates, sorted by key, in their listing order among equal keys, and without the output |
| Merge.PlanCombine | organize_pdfs.py:133-144 | a missing PDF library is reported first, then a path that is not a directory, then the listing checks |
| Dedup.FirstOccurrencesSpec | organize_pdfs.py:335-343 | the de-duplicated list has no repeats, has the same elements as the input, and is ordered by first occurrence |
| Dedup.FirstOccurrencesUnique | organize_pdfs.py:335-343 | that description fixes the list: any repeat-free list with the same elements in first-occurrence order equals it |
| Dedup.DedupLoop | organize_pdfs.py:336-343 | the `seen`-set loop computes exactly the first occurrences |
| Dedup.UntilCancel | organize_pdfs.py:169-172 | the answers gathered are those before the first cancel |
| Dedup.SelectionSpec | organize_pdfs.py:164-176 | without a dialog nothing is selected; otherwise the selection has no repeats, holds exactly the answers given before the first cancel, and lists them in the order first given |
| Dedup.SelectLoop | organize_pdfs.py:166-176 | the dialog loop with its `not in selections` test computes the selection |
| Targets.HasCandidateIff | organize_pdfs.py:317-318 | a folder "has PDFs here" iff some entry of its listing is a merge candidate for the folder's output |
| Targets.PdfSubfolders | organize_pdfs.py:323-328 | the subfolder targets are exactly the paths of the immediate subdirectories with a candidate of their own |
| Targets.PdfSubfoldersOrder | organize_pdfs.py:323-330 | those subfolders are added in listing order |
| Targets.Expand | organize_pdfs.py:314-333 | one folder: a path that is not a directory fails with `DirectoryNotFound`; a folder with a candidate of its own is its own target; otherwise its subfolders with candidates are the targets, and if there are none it fails with `NoPdfsBelow`; a success is never empty |
| Targets.Expanded | organize_pdfs.py:313-333 | the loop succeeds iff every folder expands; otherwise it fails with the error of the first folder that does not; the collected paths are each folder's targets concatenated in folder order |
| Targets.ResolveTargets | organize_pdfs.py:305-343 | resolution fails iff some folder does not expand, with the error of the first such folder; otherwise the targets have no repeats, are exactly the paths some folder expands to, and keep the order of their first occurrence in the folder-by-folder expansion |
| Targets.SubfolderTarget | organize_pdfs.py:323-330 | a subfolder target is a directory with a candidate of its own |
| Targets.TargetsReady | organize_pdfs.py:313-343 | the resolved targets have no repeats, each is a directory with a candidate, and combining one with the library present can fail only because its output exists |
| Cli.Strip | organize_pdfs.py:112 | `strip()` returns the slice with whitespace only around it, and it neither starts nor ends with whitespace |
| Cli.Components | organize_pdfs.py:113 | the path built from the typed text has no empty, `.` or slash-containing component |
| Cli.SingleComponent | organize_pdfs.py:113 | a text without slashes is the path of one component, or of none when it is empty or `.` |
| Cli.ComponentsAppend | organize_pdfs.py:113 | `Path(a + "/" + b)` has the components of `a` followed by those of `b` |
| Cli.Dispatch | organize_pdfs.py:93-115 | the GUI launches iff Tk is there and `--gui` is given or there are no folders and no `--combine`; `--gui` without Tk fails; `--combine` uses the given folders, or the dialog's folders when there are none, and fails when that leaves none; organising uses the first folder only, else the typed text, else the default folder; each case is reached exactly when its conditions hold, and no other error arises |
| Cli.PickNeverDecides | organize_pdfs.py:93-121 | the single-folder dialog is only reached without Tk, so its answer never changes the decision |
| Cli.DefaultOrganised | organize_pdfs.py:106-115 | with no arguments, no Tk and an empty typed line, the default folder `CS 05:26 PDFs` is organised |
| Cli.CombineAll | organize_pdfs.py:158-161 | targets are combined in order; the plans made are those before the first failure, and that failure is the first target's that fails |
| Cli.Execute | organize_pdfs.py:93-115 | a rejected command line does nothing else; organising a missing folder fails with `DirectoryNotFound`, and otherwise the run is `organize` on the folder's listing: no file is lost or invented, every other file stays, and the run stops part-way exactly when a PDF's folder name is held by a regular file; in combine mode a resolution error is reported whether or not the PDF library is present, and after resolution the outcome is `CombineAll` over the targets: in order, each at most once, failing only on a missing library or an existing output |
| Cli.CombineReady | organize_pdfs.py:158-161 | over repeat-free, ready targets, the plans follow the targets in order with distinct folders, and the only failures are a missing library or an existing output |

## Left out

- Real I/O is not modelled. `iterdir`, `mkdir`, `move` and `exists` are operations on the immutable tree. A listing is taken once, when the loop starts.
- PDF merging is not modelled. `PdfMerger.append`, `write` and `close` belong to an outside library. The model stops at the plan: the folder, the output name and the ordered inputs.
- The Tk GUI is not modelled: `launch_gui` beyond its Tk check, `do_organize`, `do_combine`, `add_tooltip` and the message boxes. The dialogs become answer sequences in `Cli.Env`.
- Argument parsing, `print` and `input` are not modelled. The parsed flags and the typed line are inputs. The printed lines are `Organize.Step` values and error constructors, without their text.
- Unicode is not modelled. Letters, digits, lower-casing and `strip()` whitespace are ASCII only. Python's `\d` and `isdigit` also accept other decimal digits, and `lower` folds other scripts.
- Only part of pathlib is modelled. `Path(text)` splits at `/` and drops empty and `.` components. Absolute paths, `..` and symbolic links are not modelled. Every path is relative to the tree's root.
- `Tree.WellFormed` and `Tree.UniqueNames` require unique names within each directory, as any real filesystem has. Several lemmas assume this.
- A folder the organiser creates goes at the end of the directory's listing. The real order of `iterdir` is unspecified, and the run only visits the snapshot taken at the start, so the position does not matter.
- `Cli.CombineAll` plans every target against the tree as it was before any output was written. Writing `<t>/<t name>.pdf` changes only the listing of `t` itself, and the targets have no repeats, so no later target's listing is affected. A directory already called `<t name>.pdf` inside `t` makes `t` fail with `OutputExists`, so no write replaces it.
- `Dedup.SelectLoop` models the dialog as a finite answer sequence. Running out of answers ends the loop like a cancel does.
- `shutil.move` across filesystems and the file contents are not modelled. File data is carried along unchanged.
- The Illustrator EPS scripts in the same repository (`Update EPS.js`, `Scan EPS RGB.jsx`) are not part of this model.

=== FILE: cli.dfy ===
/** `main`: what the command line and the prompts decide, and what running
    that decision does to the tree. */
module Cli {
  import opened Errors
  import opened Names
  import opened Tree
  import Organize
  import opened Merge
  import opened Dedup
  import opened Targets
  import Seqs

  /** The parsed command line: `--combine`, `--gui` and the positional
      folders. */
  datatype Args = Args(combine: bool, gui: bool, directories: seq<Path>)

  /** What the outside world would say: whether Tk could be imported, the
      folders the multi-select dialog would return one by one (`None` is a
      cancel), the single-folder dialog's answer, and the line typed at the
      prompt. */
  datatype Env = Env(tkAvailable: bool, selectAnswers: seq<Option<Path>>, pickAnswer: Option<Path>, typed: string)

  datatype Action = LaunchGui | CombineFolders(folders: seq<Path>) | OrganizeFolder(folder: Path)

  /** The folder organised when nothing else is given. */
  const DefaultFolder: string := "CS 05:26 PDFs"

  /** Whitespace as `str.strip()` sees it, within ASCII. */
  predicate IsSpace(c: char) {
    (9 <= c as int <= 13) || (28 <= c as int <= 32)
  }

  /** The length of the longest suffix of `s` whose characters satisfy `p`. */
  function TrailingLength(s: string, p: char -> bool): (n: nat)
    ensures n <= |s|
    ensures forall i :: |s| - n <= i < |s| ==> p(s[i])
    ensures n < |s| ==> !p(s[|s| - n - 1])
  {
    if |s| == 0 || !p(s[|s| - 1]) then 0 else 1 + TrailingLength(s[..|s| - 1], p)
  }

  /** `str.strip()`: the slice of `s` left after removing whitespace from
      both ends. */
  function Strip(s: string): (r: string)
    ensures r == [] || (!IsSpace(r[0]) && !IsSpace(r[|r| - 1]))
    ensures exists i :: StrippedAt(s, r, i, IsSpace)
  {
    var a := RunLength(s, IsSpace);
    var b := TrailingLength(s[a..], IsSpace);
    TrimSlice(s, a, b, IsSpace);
    s[a..|s| - b]
  }

  lemma TrimSlice(s: string, a: nat, b: nat, p: char -> bool)
    requires a == RunLength(s, p) && b == TrailingLength(s[a..], p)
    ensures StrippedAt(s, s[a..|s| - b], a, p)
    ensures var r := s[a..|s| - b]; r == [] || (!p(r[0]) && !p(r[|r| - 1]))
  {
    TrimTail(s, a, b, p);
    if a < |s| - b {
      TrimEnds(s, a, b, p);
    }
  }

  lemma TrimTail(s: string, a: nat, b: nat, p: char -> bool)
    requires a <= |s| && b <= |s| - a
    requires forall i :: |s| - a - b <= i < |s| - a ==> p(s[a..][i])
    ensures forall k :: |s| - b <= k < |s| ==> p(s[k])
  {
    var rest := s[a..];
    forall k | |s| - b <= k < |s| ensures p(s[k]) {
      assert s[k] == rest[k - a];
    }
  }

  lemma TrimEnds(s: string, a: nat, b: nat, p: char -> bool)
    requires a < |s| - b && !p(s[a])
    requires !p(s[a..][|s| - a - b - 1])
    ensures var r := s[a..|s| - b]; !p(r[0]) && !p(r[|r| - 1])
  {
    var rest := s[a..];
    var r := s[a..|s| - b];
    assert r[0] == s[a];
    assert r[|r| - 1] == rest[|s| - a - b - 1];
  }

  /** `r` is the slice of `s` at `i`, and everything around it satisfies `p`. */
  predicate StrippedAt(s: string, r: string, i: int, p: char -> bool) {
    && 0 <= i <= |s| - |r| && r == s[i..i + |r|]
    && (forall k :: 0 <= k < i ==> p(s[k]))
    && (forall k :: i + |r| <= k < |s| ==> p(s[k]))
  }

  /** `Path(text)` as a sequence of components: split at `/`, dropping empty
      and `.` components as pathlib does. */
  function Components(s: string): (r: Path)
    ensures forall i :: 0 <= i < |r| ==> r[i] != "" && r[i] != "." && '/' !in r[i]
    decreases |s|
  {
    var k := RunLength(s, NotSlash);
    var head := s[..k];
    var rest := if k < |s| then Components(s[k + 1..]) else [];
    if head == "" || head == "." then rest else [head] + rest
  }

  predicate NotSlash(c: char) {
    c != '/'
  }

  /** The path of one slash-free piece: nothing for an empty or `.` piece. */
  function Piece(h: string): Path {
    if h == "" || h == "." then [] else [h]
  }

  /** Splitting at the first slash. */
  lemma ComponentsSplit(s: string, k: nat)
    requires k <= |s| && '/' !in s[..k] && (k < |s| ==> s[k] == '/')
    ensures Components(s) == Piece(s[..k]) + if k < |s| then Components(s[k + 1..]) else []
  {
    forall i | 0 <= i < k ensures NotSlash(s[i]) {
      assert s[..k][i] in s[..k];
    }
    RunLengthUnique(s, NotSlash, k);
    var rest := if k < |s| then Components(s[k + 1..]) else [];
    assert Components(s) == if s[..k] == "" || s[..k] == "." then rest else [s[..k]] + rest;
  }

  /** Joining two texts with a slash joins their paths. */
  lemma {:induction false} ComponentsAppend(a: string, b: string)
    ensures Components(a + "/" + b) == Components(a) + Components(b)
    decreases |a|
  {
    var s := a + "/" + b;
    var k := RunLength(a, NotSlash);
    assert '/' !in a[..k] by {
      forall i | 0 <= i < k ensures a[..k][i] != '/' {
        assert NotSlash(a[i]);
      }
    }
    assert s[..k] == a[..k];
    ComponentsSplit(a, k);
    ComponentsSplit(s, k);
    if k == |a| {
      assert s[k + 1..] == b;
      assert Components(a) == Piece(a[..k]);
    } else {
      var tail := a[k + 1..];
      assert s[k + 1..] == tail + "/" + b;
      ComponentsAppend(tail, b);
      Seqs.Assoc3(Piece(a[..k]), Components(tail), Components(b));
    }
  }

  /** `pick_directory`: the single-folder dialog, `None` without Tk or on
      cancel. */
  function PickDirectory(env: Env): Option<Path> {
    if env.tkAvailable then env.pickAnswer else None
  }

  /** The decision `main` makes before doing any work. */
  function Dispatch(args: Args, env: Env): (r: Result<Action>)
    ensures r == Ok(LaunchGui) <==>
              env.tkAvailable && (args.gui || (args.directories == [] && !args.combine))
    ensures r == Err(GuiUnavailable) <==> args.gui && !env.tkAvailable
    ensures r.Ok? && r.value.CombineFolders? ==>
              && args.combine && !args.gui
              && r.value.folders != []
              && r.value.folders == if args.directories != [] then args.directories
                                     else Selection(env.tkAvailable, env.selectAnswers)
    ensures r == Err(NoFoldersToCombine) <==>
              && args.combine && !args.gui && args.directories == []
              && Selection(env.tkAvailable, env.selectAnswers) == []
    ensures r.Ok? && r.value.OrganizeFolder? ==>
              && !args.combine && !args.gui
              && r.value.folder == if args.directories != [] then args.directories[0]
                                   else var t := Strip(env.typed);
                                        Components(if t == [] then DefaultFolder else t)
    ensures r.Err? ==> r.error == GuiUnavailable || r.error == NoFoldersToCombine
    ensures args.combine && !args.gui
            && (args.directories != [] || Selection(env.tkAvailable, env.selectAnswers) != []) ==>
              r.Ok? && r.value.CombineFolders?
    ensures !args.combine && !args.gui && (args.directories != [] || !env.tkAvailable) ==>
              r.Ok? && r.value.OrganizeFolder?
  {
    if args.gui || (args.directories == [] && !args.combine && env.tkAvailable) then
      if env.tkAvailable then Ok(LaunchGui) else Err(GuiUnavailable)
    else if args.combine then
      var dirs := if args.directories == [] && env.tkAvailable
                  then Selection(env.tkAvailable, env.selectAnswers) else args.directories;
      if dirs == [] then Err(NoFoldersToCombine) else Ok(CombineFolders(dirs))
    else if args.directories != [] then
      Ok(OrganizeFolder(args.directories[0]))
    else
      match PickDirectory(env)
      case Some(d) => Ok(OrganizeFolder(d))
      case None =>
        var t := Strip(env.typed);
        Ok(OrganizeFolder(Components(if t == [] then DefaultFolder else t)))
  }

  /** The single-folder dialog is only reached when Tk is missing (with Tk
      and no folders the menu opens instead), so its answer never matters. */
  lemma PickNeverDecides(args: Args, env: Env, answer: Option<Path>)
    ensures Dispatch(args, env) == Dispatch(args, env.(pickAnswer := answer))
  {
    if !args.gui && !args.combine && args.directories == [] {
      assert !env.tkAvailable ==> PickDirectory(env) == None;
    }
  }

  /** With no folders, nothing typed and no Tk, the default folder is
      organised. */
  lemma DefaultOrganised(env: Env)
    requires !env.tkAvailable && Strip(env.typed) == []
    ensures Dispatch(Args(false, false, []), env) == Ok(OrganizeFolder([DefaultFolder]))
  {
    SingleComponent(DefaultFolder);
  }

  /** A text without slashes is one component, unless it is empty or `.`. */
  lemma SingleComponent(s: string)
    requires '/' !in s
    ensures Components(s) == if s == "" || s == "." then [] else [s]
  {
    assert s[..|s|] == s;
    ComponentsSplit(s, |s|);
  }

  /** `combine_multiple_folders` after target resolution: `plan` (which
      is `combine_pdfs_in_folder` up to the PDF library) runs on each target
      in turn; the result is the plans made before the first failure, and
      that failure. */
  function CombineAll(targets: seq<Path>, plan: Path -> Result<Plan>): (r: (seq<Plan>, Option<Error>))
    ensures |r.0| <= |targets|
    ensures forall i :: 0 <= i < |r.0| ==> plan(targets[i]) == Ok(r.0[i])
    ensures r.1.None? <==> |r.0| == |targets|
    ensures r.1.Some? ==> plan(targets[|r.0|]) == Err(r.1.value)
  {
    if |targets| == 0 then ([], None)
    else match plan(targets[0])
      case Err(e) => ([], Some(e))
      case Ok(first) =>
        var rest := CombineAll(targets[1..], plan);
        assert forall i :: 1 <= i < |targets| ==> targets[i] == targets[1..][i - 1];
        ([first] + rest.0, rest.1)
  }

  datatype Outcome =
    | GuiLaunched
    | Organized(run: Organize.Run)
    | Combined(plans: seq<Plan>, failure: Option<Error>)

  /** `main` end to end. An `Err` stops the program before it changes
      anything; a `Combined` outcome with a failure stopped it after the
      plans before the failure were carried out; an organising run carries
      its own crash. */
  function Execute(root: Entry, args: Args, env: Env, mergerAvailable: bool): (r: Result<Outcome>)
    requires WellFormed(root)
    // A rejected command line does nothing else.
    ensures Dispatch(args, env).Err? ==> r == Err(Dispatch(args, env).error)
    ensures Dispatch(args, env) == Ok(LaunchGui) ==> r == Ok(GuiLaunched)
    // Organising: a missing folder is reported; otherwise the run is
    // `organize` on the folder's listing, which loses or invents no file,
    // leaves every other file in place, and stops part-way exactly when a
    // PDF's folder name is held by a regular file.
    ensures Dispatch(args, env).Ok? && Dispatch(args, env).value.OrganizeFolder? ==>
              var p := Dispatch(args, env).value.folder;
              && (r.Ok? <==> IsDir(Lookup(root, p)))
              && (r.Err? ==> r.error == DirectoryNotFound(p))
              && (r.Ok? ==>
                    var kids := Lookup(root, p).value.children;
                    && r.value.Organized?
                    && (LookupWellFormed(root, p); r.value.run == Organize.Organize(p, Lookup(root, p)).value)
                    && FilesIn(r.value.run.children) == FilesOf(Lookup(root, p).value)
                    && (forall i :: 0 <= i < |kids| && Organize.IsOther(kids[i]) ==> kids[i] in r.value.run.children)
                    && (r.value.run.crash.Some? <==> exists j :: Organize.Blocked(kids, kids, j)))
    // Combining: a folder error wins over a missing PDF library; each
    // resolved target is combined at most once, in order; the only failures
    // after resolution are a missing library and an existing output.
    ensures Dispatch(args, env).Ok? && Dispatch(args, env).value.CombineFolders? ==>
              var folders := Dispatch(args, env).value.folders;
              && (ResolveTargets(root, folders).Err? ==> r == Err(ResolveTargets(root, folders).error))
              && (ResolveTargets(root, folders).Ok? ==> r.Ok? && r.value.Combined?)
    ensures r.Ok? && r.value.Combined? ==>
              && Dispatch(args, env).Ok? && Dispatch(args, env).value.CombineFolders?
              && var targets := ResolveTargets(root, Dispatch(args, env).value.folders).value;
              && (r.value.plans, r.value.failure) == CombineAll(targets, t => PlanCombine(root, t, mergerAvailable))
              && |r.value.plans| <= |targets|
              && (forall i :: 0 <= i < |r.value.plans| ==> r.value.plans[i].folder == targets[i])
              && (forall i, j :: 0 <= i < j < |r.value.plans| ==> r.value.plans[i].folder != r.value.plans[j].folder)
              && (!mergerAvailable ==> r.value.plans == [] && r.value.failure == Some(MergerMissing))
              && (r.value.failure.Some? ==> r.value.failure.value == MergerMissing || r.value.failure.value.OutputExists?)
  {
    match Dispatch(args, env)
    case Err(e) => Err(e)
    case Ok(LaunchGui) => Ok(GuiLaunched)
    case Ok(OrganizeFolder(p)) =>
      var node := Lookup(root, p);
      LookupWellFormed(root, p);
      (match Organize.Organize(p, node)
       case Err(e) => Err(e)
       case Ok(run) =>
         Organize.OrganizeStops(p, node.value.name, node.value.children);
         Ok(Organized(run)))
    case Ok(CombineFolders(folders)) =>
      match ResolveTargets(root, folders)
      case Err(e) => Err(e)
      case Ok(targets) =>
        TargetsReady(root, folders);
        ResolvedNonEmpty(root, folders);
        CombineReady(root, targets, mergerAvailable);
        var (plans, failure) := CombineAll(targets, t => PlanCombine(root, t, mergerAvailable));
        Ok(Combined(plans, failure))
  }

  lemma ResolvedNonEmpty(root: Entry, folders: seq<Path>)
    requires folders != [] && ResolveTargets(root, folders).Ok?
    ensures ResolveTargets(root, folders).value != []
  {
    var raw := Expanded(root, folders).value;
    var t := Expand(root, folders[0]).value[0];
    assert t in raw;
    FirstOccurrencesSpec(raw);
  }

  /** Combining a list of ready targets. */
  lemma CombineReady(root: Entry, targets: seq<Path>, mergerAvailable: bool)
    requires targets != [] && NoDuplicates(targets)
    requires forall t :: t in targets ==>
               (PlanCombine(root, t, true).Err? ==> PlanCombine(root, t, true).error.OutputExists?)
    ensures var (plans, failure) := CombineAll(targets, t => PlanCombine(root, t, mergerAvailable));
              && (forall i :: 0 <= i < |plans| ==> plans[i].folder == targets[i])
              && (forall i, j :: 0 <= i < j < |plans| ==> plans[i].folder != plans[j].folder)
              && (!mergerAvailable ==> plans == [] && failure == Some(MergerMissing))
              && (failure.Some? ==> failure.value == MergerMissing || failure.value.OutputExists?)
  {
    var (plans, failure) := CombineAll(targets, t => PlanCombine(root, t, mergerAvailable));
    forall i | 0 <= i < |plans| ensures plans[i].folder == targets[i] {
      assert PlanCombine(root, targets[i], mergerAvailable) == Ok(plans[i]);
    }
    if failure.Some? && mergerAvailable {
      assert targets[|plans|] in targets;
    }
  }
}

=== FILE: dedup.dfy ===
/** Removing repeats while keeping first occurrences, as both the combine
    target resolution and the folder-picking dialog loop do. */
module Dedup {
  import opened Errors

  /** The reference definition: each distinct element once, at the place it
      first occurs. */
  function FirstOccurrences<T(==)>(s: seq<T>): (r: seq<T>)
    ensures |r| <= |s|
    decreases |s|
  {
    if |s| == 0 then []
    else
      var init := s[..|s| - 1];
      var r := FirstOccurrences(init);
      if s[|s| - 1] in init then r else r + [s[|s| - 1]]
  }

  predicate NoDuplicates<T(==)>(s: seq<T>) {
    forall i, j :: 0 <= i < j < |s| ==> s[i] != s[j]
  }

  /** The index at which `x` first occurs in `s`. */
  function FirstIndex<T(==)>(s: seq<T>, x: T): (k: nat)
    requires x in s
    ensures k < |s| && s[k] == x && x !in s[..k]
  {
    if s[0] == x then 0
    else
      var k := FirstIndex(s[1..], x);
      assert s[..k + 1] == [s[0]] + s[1..][..k];
      k + 1
  }

  lemma FirstIndexPrefix<T>(s: seq<T>, n: nat, x: T)
    requires n <= |s| && x in s[..n]
    ensures FirstIndex(s, x) == FirstIndex(s[..n], x)
  {
    var k := FirstIndex(s[..n], x);
    var m := FirstIndex(s, x);
    assert s[..n][..k] == s[..k];
  }

  /** The repeats are gone, nothing else is, and the survivors keep the order
      of their first occurrences. Together these pin the result down. */
  lemma {:induction false} FirstOccurrencesSpec<T>(s: seq<T>)
    ensures NoDuplicates(FirstOccurrences(s))
    ensures forall x :: x in FirstOccurrences(s) <==> x in s
    ensures forall i, j :: 0 <= i < j < |FirstOccurrences(s)| ==>
              FirstIndex(s, FirstOccurrences(s)[i]) < FirstIndex(s, FirstOccurrences(s)[j])
    decreases |s|
  {
    if |s| > 0 {
      var init := s[..|s| - 1];
      var last := s[|s| - 1];
      var r := FirstOccurrences(init);
      FirstOccurrencesSpec(init);
      assert s == init + [last];
      forall x | x in init ensures FirstIndex(s, x) == FirstIndex(init, x) {
        FirstIndexPrefix(s, |s| - 1, x);
      }
      if last !in init {
        assert FirstIndex(s, last) == |s| - 1;
      }
    }
  }

  /** Any two lists that both keep exactly the first occurrences of `s` are
      the same list: the reference definition is the only one. */
  lemma {:induction false} FirstOccurrencesUnique<T>(s: seq<T>, r: seq<T>)
    requires NoDuplicates(r)
    requires forall x :: x in r <==> x in s
    requires forall i, j :: 0 <= i < j < |r| ==> FirstIndex(s, r[i]) < FirstIndex(s, r[j])
    ensures r == FirstOccurrences(s)
    decreases |s|
  {
    FirstOccurrencesSpec(s);
    SameOrder(s, r, FirstOccurrences(s));
  }

  /** Two repeat-free lists with the same elements, both ordered by first
      index in `s`, are equal. */
  lemma {:induction false} SameOrder<T>(s: seq<T>, r: seq<T>, f: seq<T>)
    requires NoDuplicates(r) && NoDuplicates(f)
    requires forall x :: x in r <==> x in f
    requires forall x :: x in r ==> x in s
    requires forall i, j :: 0 <= i < j < |r| ==> FirstIndex(s, r[i]) < FirstIndex(s, r[j])
    requires forall i, j :: 0 <= i < j < |f| ==> FirstIndex(s, f[i]) < FirstIndex(s, f[j])
    ensures r == f
    decreases |r| + |f|
  {
    if |r| > 0 { assert r[0] in r; }
    if |f| > 0 { assert f[0] in f; }
    if |r| > 0 && |f| > 0 {
      assert r[0] == f[0];
      var r1, f1 := r[1..], f[1..];
      TailSubset(r, f);
      TailSubset(f, r);
      SameOrder(s, r1, f1);
      assert r == [r[0]] + r1 && f == [f[0]] + f1;
    }
  }

  /** Two repeat-free lists with the same elements and the same head have
      tails with the same elements (one direction). */
  lemma TailSubset<T>(r: seq<T>, f: seq<T>)
    requires NoDuplicates(r) && NoDuplicates(f)
    requires |r| > 0 && |f| > 0 && r[0] == f[0]
    requires forall x :: x in r <==> x in f
    ensures forall x :: x in r[1..] ==> x in f[1..]
  {
    forall x | x in r[1..] ensures x in f[1..] {
      var i :| 0 <= i < |r[1..]| && r[1..][i] == x;
      assert r[i + 1] == x;
      assert x in f;
      var j :| 0 <= j < |f| && f[j] == x;
      assert j != 0;
      assert f[1..][j - 1] == x;
    }
  }

  /** Extending the input by one element appends it to the result iff it is
      new. */
  lemma FirstOccurrencesStep<T>(s: seq<T>, i: nat)
    requires i < |s|
    ensures FirstOccurrences(s[..i + 1]) ==
              if s[i] in FirstOccurrences(s[..i]) then FirstOccurrences(s[..i])
              else FirstOccurrences(s[..i]) + [s[i]]
  {
    assert s[..i + 1][..i] == s[..i];
    FirstOccurrencesSpec(s[..i]);
  }

  /** The loop that ends `resolve_combine_targets`: one pass with a `seen`
      set, appending what it has not seen yet. */
  method DedupLoop<T(==)>(s: seq<T>) returns (r: seq<T>)
    ensures r == FirstOccurrences(s)
  {
    var seen: set<T> := {};
    r := [];
    var i := 0;
    while i < |s|
      invariant 0 <= i <= |s|
      invariant r == FirstOccurrences(s[..i])
      invariant forall x :: x in seen <==> x in s[..i]
    {
      assert s[..i + 1][..i] == s[..i];
      if s[i] !in seen {
        seen := seen + {s[i]};
        r := r + [s[i]];
      }
      i := i + 1;
    }
    assert s[..|s|] == s;
  }

  /** The answers the dialog gave before the first cancel. */
  function UntilCancel<T>(answers: seq<Option<T>>): (r: seq<T>)
    ensures |r| <= |answers|
    ensures forall i :: 0 <= i < |r| ==> answers[i] == Some(r[i])
    ensures |r| == |answers| || answers[|r|].None?
  {
    if |answers| == 0 || answers[0].None? then []
    else [answers[0].value] + UntilCancel(answers[1..])
  }

  /** `select_multiple_directories`: nothing without a dialog, otherwise the
      distinct folders picked before the first cancel, in the order first
      picked. */
  function Selection<T(==)>(dialogAvailable: bool, answers: seq<Option<T>>): (r: seq<T>)
  {
    if dialogAvailable then FirstOccurrences(UntilCancel(answers)) else []
  }

  lemma SelectionSpec<T>(dialogAvailable: bool, answers: seq<Option<T>>)
    ensures !dialogAvailable ==> Selection(dialogAvailable, answers) == []
    ensures NoDuplicates(Selection(dialogAvailable, answers))
    ensures dialogAvailable ==>
              forall x :: x in Selection(dialogAvailable, answers) <==> x in UntilCancel(answers)
    ensures dialogAvailable ==>
              var r := Selection(dialogAvailable, answers);
              forall i, j :: 0 <= i < j < |r| ==>
                FirstIndex(UntilCancel(answers), r[i]) < FirstIndex(UntilCancel(answers), r[j])
  {
    FirstOccurrencesSpec(UntilCancel(answers));
  }

  /** The dialog loop itself: ask until the user cancels (or the answers
      given here run out), skipping folders already picked. */
  method SelectLoop<T(==)>(dialogAvailable: bool, answers: seq<Option<T>>) returns (selections: seq<T>)
    ensures selections == Selection(dialogAvailable, answers)
  {
    if !dialogAvailable {
      return [];
    }
    selections := [];
    var i := 0;
    while i < |answers| && answers[i].Some?
      invariant 0 <= i <= |answers|
      invariant forall j :: 0 <= j < i ==> answers[j].Some?
      invariant selections == FirstOccurrences(UntilCancel(answers)[..i])
    {
      var path := answers[i].value;
      ghost var u := UntilCancel(answers);
      assert i < |u| && u[i] == path;
      FirstOccurrencesStep(u, i);
      if path !in selections {
        selections := selections + [path];
      }
      i := i + 1;
    }
    ghost var u := UntilCancel(answers);
    assert |u| == i;
    assert u[..i] == u;
  }
}

=== FILE: errors.dfy ===
/** Failure outcomes of the organiser and combiner.
    Each `raise SystemExit(...)` of the program, and the `FileExistsError` that
    `mkdir` raises when a file holds a target folder's name, becomes one
    constructor of `Error`; the message text is not modelled, only which check
    fired and on what. */
module Errors {

  /** The ways a path argument, a folder or the command line can be rejected. */
  datatype Error =
    | DirectoryNotFound(path: seq<string>)      // `is_dir()` was false
    | FolderIsAFile(folder: string)             // `mkdir(exist_ok=True)` on a name held by a file
    | MergerMissing                             // PyPDF2 could not be imported
    | NoPdfs(path: seq<string>)                 // a folder to combine has no merge candidate
    | OutputExists(path: seq<string>)           // `<folder>.pdf` is already there
    | NoPdfsBelow(path: seq<string>)            // neither the folder nor a direct subfolder has candidates
    | NoFoldersToCombine                        // `--combine` ended up with an empty folder list
    | GuiUnavailable                            // `launch_gui` without Tk

  /** A value or the error that stopped the computation. */
  datatype Result<+T> = Ok(value: T) | Err(error: Error)

  datatype Option<+T> = None | Some(value: T)
}

=== FILE: lex.dfy ===
/** Lexicographic order on sequences, as Python compares tuples and strings:
    the first position where the elements differ decides; if there is none,
    the shorter sequence is the smaller. */
module Lex {

  ghost predicate Irreflexive<T(!new)>(lt: (T, T) -> bool) {
    forall x :: !lt(x, x)
  }

  ghost predicate Transitive<T(!new)>(lt: (T, T) -> bool) {
    forall x, y, z :: lt(x, y) && lt(y, z) ==> lt(x, z)
  }

  ghost predicate Connected<T(!new)>(lt: (T, T) -> bool) {
    forall x, y :: x != y ==> lt(x, y) || lt(y, x)
  }

  /** `lt` is a strict total order. */
  ghost predicate StrictTotal<T(!new)>(lt: (T, T) -> bool) {
    Irreflexive(lt) && Transitive(lt) && Connected(lt)
  }

  predicate LexLess<T(==)>(lt: (T, T) -> bool, a: seq<T>, b: seq<T>) {
    if |a| == 0 then |b| > 0
    else if |b| == 0 then false
    else if a[0] == b[0] then LexLess(lt, a[1..], b[1..])
    else lt(a[0], b[0])
  }

  lemma {:induction false} LexIrreflexive<T(!new)>(lt: (T, T) -> bool, a: seq<T>)
    requires Irreflexive(lt)
    ensures !LexLess(lt, a, a)
  {
    if |a| > 0 {
      LexIrreflexive(lt, a[1..]);
    }
  }

  lemma {:induction false} LexTransitive<T(!new)>(lt: (T, T) -> bool, a: seq<T>, b: seq<T>, c: seq<T>)
    requires StrictTotal(lt)
    requires LexLess(lt, a, b) && LexLess(lt, b, c)
    ensures LexLess(lt, a, c)
  {
    if |a| > 0 && |b| > 0 && |c| > 0 {
      if a[0] == b[0] && b[0] == c[0] {
        LexTransitive(lt, a[1..], b[1..], c[1..]);
      }
    }
  }

  lemma {:induction false} LexConnected<T(!new)>(lt: (T, T) -> bool, a: seq<T>, b: seq<T>)
    requires Connected(lt)
    ensures a == b || LexLess(lt, a, b) || LexLess(lt, b, a)
  {
    if |a| > 0 && |b| > 0 && a[0] == b[0] {
      LexConnected(lt, a[1..], b[1..]);
      if a[1..] == b[1..] {
        assert a == [a[0]] + a[1..] && b == [b[0]] + b[1..];
      }
    }
  }
}

=== FILE: merge.dfy ===
/** The combiner's input selection: `is_merge_candidate` and the checks
    `combine_pdfs_in_folder` makes before it hands anything to the PDF
    library. */
module Merge {
  import opened Errors
  import opened Names
  import opened Tree
  import opened NaturalSort
  import StableSort

  /** `folder / f"{folder.name}.pdf"`, as a name inside the folder. */
  function OutputName(folderName: string): string {
    folderName + ".pdf"
  }

  /** `is_merge_candidate(path, output_path)` for an entry of the folder's
      listing: a regular file with a `.pdf` suffix in any case whose
      lower-cased stem is neither the output's stem nor contains `combined`
      or `merged`. */
  predicate IsMergeCandidate(e: Entry, output: string) {
    && e.File?
    && IsPdfName(e.name)
    && Lower(Stem(e.name)) != Lower(Stem(output))
    && !Contains(Lower(Stem(e.name)), "combined")
    && !Contains(Lower(Stem(e.name)), "merged")
  }

  /** The file the combiner writes, in any mix of case, is never one of its
      own inputs; neither is a directory, a non-PDF, or a likely earlier
      output. */
  lemma CandidateExclusions(e: Entry, folderName: string)
    ensures Lower(e.name) == Lower(OutputName(folderName)) ==> !IsMergeCandidate(e, OutputName(folderName))
    ensures IsMergeCandidate(e, OutputName(folderName)) ==>
              && e.File?
              && |e.name| > 4 && Lower(e.name[|e.name| - 4..]) == ".pdf"
              && !Contains(Lower(e.name), "combined.pdf")
  {
    var out := OutputName(folderName);
    LowerStem(e.name);
    LowerStem(out);
    IsPdfNameEndsWith(e.name);
    if IsMergeCandidate(e, out) && Contains(Lower(e.name), "combined.pdf") {
      var ln := Lower(e.name);
      var i :| OccursAt(ln, "combined.pdf", i);
      var n := |e.name|;
      // `.pdf` ends the name, so the match ends the name too, and its
      // `combined` part lies inside the stem.
      StemSuffixSplit(e.name);
      assert Suffix(e.name) == e.name[n - 4..] by {
        assert |Suffix(e.name)| == 4;
      }
      assert Stem(e.name) == e.name[..n - 4];
      MatchBeforeSuffix(ln, i, n);
      assert Lower(Stem(e.name)) == ln[..n - 4];
      assert OccursAt(Lower(Stem(e.name)), "combined", i);
      assert false;
    }
  }

  /** The whole test without `pathlib`: a file is a candidate for the output
      of folder `folderName` exactly when its name is at least one character
      followed by `.pdf` in any case, and those leading characters,
      lower-cased, are not the output's stem (`.pdf` itself when the folder
      name is empty) and contain neither `combined` nor `merged`. */
  lemma CandidateIff(e: Entry, folderName: string)
    ensures IsMergeCandidate(e, OutputName(folderName)) <==>
              && e.File?
              && |e.name| > 4 && Lower(e.name[|e.name| - 4..]) == ".pdf"
              && Lower(e.name[..|e.name| - 4]) != (if folderName == "" then ".pdf" else Lower(folderName))
              && !Contains(Lower(e.name[..|e.name| - 4]), "combined")
              && !Contains(Lower(e.name[..|e.name| - 4]), "merged")
  {
    IsPdfNameEndsWith(e.name);
    OutputStem(folderName);
    if e.File? && IsPdfName(e.name) {
      PdfStem(e.name);
    }
  }

  /** The output's stem, lower-cased, is the folder name lower-cased, or
      `.pdf` when the folder name is empty. */
  lemma OutputStem(folderName: string)
    ensures Lower(Stem(OutputName(folderName))) == (if folderName == "" then ".pdf" else Lower(folderName))
  {
    PdfNameStem(folderName);
    if folderName == "" {
      assert Lower(".pdf") == ".pdf";
    }
  }

  /** A PDF name's stem is all but its last four characters. */
  lemma PdfStem(name: string)
    requires IsPdfName(name)
    ensures |name| > 4 && Stem(name) == name[..|name| - 4]
  {
    IsPdfNameEndsWith(name);
    StemSuffixSplit(name);
    assert |Suffix(name)| == 4;
  }

  /** An occurrence of `combined.pdf` in a name puts `combined` inside the
      part before the name's last four characters. */
  lemma MatchBeforeSuffix(ln: string, i: int, n: int)
    requires n == |ln| > 4
    requires OccursAt(ln, "combined.pdf", i)
    ensures i + 8 <= n - 4 && ln[..n - 4][i..i + 8] == "combined"
  {
    assert ln[i..i + 12] == "combined.pdf";
    assert ln[..n - 4][i..i + 8] == ln[i..i + 8] == ln[i..i + 12][..8];
  }

  /** `is_merge_candidate` against a fixed output, as a test on entries. */
  function CandidateFor(output: string): Entry -> bool {
    e => IsMergeCandidate(e, output)
  }

  /** The names of the candidates of a listing, in listing order. */
  function Candidates(kids: seq<Entry>, output: string): (names: seq<string>)
    ensures |names| <= |kids|
    ensures forall i :: 0 <= i < |kids| && IsMergeCandidate(kids[i], output) ==> kids[i].name in names
    ensures forall n :: n in names ==> exists i :: 0 <= i < |kids| && IsMergeCandidate(kids[i], output) && kids[i].name == n
  {
    Select(kids, CandidateFor(output), NameOf)
  }

  /** The candidates keep listing order: the `i`-th name is that of the
      `i`-th entry that passes `is_merge_candidate`, so each entry
      contributes its name once. */
  lemma CandidatesOrder(kids: seq<Entry>, output: string)
    ensures var names, idx := Candidates(kids, output), IndicesWhere(kids, CandidateFor(output), 0);
            |names| == |idx| && forall i :: 0 <= i < |names| ==> names[i] == kids[idx[i]].name
  {
    SelectOrder(kids, CandidateFor(output), NameOf);
  }

  /** No listing offers the combiner's own output file as an input. */
  lemma OutputNotCandidate(kids: seq<Entry>, folderName: string)
    ensures OutputName(folderName) !in Candidates(kids, OutputName(folderName))
  {
    var output := OutputName(folderName);
    forall i | 0 <= i < |kids| && kids[i].name == output
      ensures !IsMergeCandidate(kids[i], output)
    {
      CandidateExclusions(kids[i], folderName);
    }
  }

  /** What `combine_pdfs_in_folder` hands to the PDF library: the folder, the
      name of the file it writes, and the inputs in merge order. */
  datatype Plan = Plan(folder: Path, output: string, inputs: seq<string>)

  /** The checks `combine_pdfs_in_folder` makes once it has the listing
      `kids` of the directory `p`: there must be a candidate ("No PDFs" comes
      before the overwrite refusal) and the output must not exist yet. The
      inputs are the candidates in natural order. */
  function PlanListing(p: Path, kids: seq<Entry>): (r: Result<Plan>)
    ensures r.Ok? ==>
              && r.value.folder == p
              && r.value.output == OutputName(PathName(p))
              && Find(kids, r.value.output).None?
              && |r.value.inputs| > 0
              && multiset(r.value.inputs) == multiset(Candidates(kids, r.value.output))
              && r.value.output !in r.value.inputs
              && (forall i, j :: 0 <= i < j < |r.value.inputs| ==> !KeyLess(Key(r.value.inputs[j]), Key(r.value.inputs[i])))
              && (forall k :: StableSort.WithKey(r.value.inputs, Key, k) == StableSort.WithKey(Candidates(kids, r.value.output), Key, k))
    ensures r.Err? ==>
              var output := OutputName(PathName(p));
              if Candidates(kids, output) == [] then r.error == NoPdfs(p)
              else r.error == OutputExists(p + [output]) && Find(kids, output).Some?
  {
    var output := OutputName(PathName(p));
    var cands := Candidates(kids, output);
    var inputs := NaturalSort.NaturalSort(cands);
    NaturalSortCorrect(cands);
    if |inputs| == 0 then
      assert |cands| == 0 by { assert |multiset(cands)| == |multiset(inputs)|; }
      Err(NoPdfs(p))
    else if Find(kids, output).Some? then
      assert cands != [];
      Err(OutputExists(p + [output]))
    else
      OutputNotCandidate(kids, PathName(p));
      assert output !in multiset(cands);
      Ok(Plan(p, output, inputs))
  }

  /** `combine_pdfs_in_folder` up to the call into the PDF library, in the
      program's order of checks: the library must be present, then the path
      must be a directory, then the listing checks of `PlanListing`. */
  function PlanCombine(root: Entry, p: Path, mergerAvailable: bool): (r: Result<Plan>)
    ensures !mergerAvailable ==> r == Err(MergerMissing)
    ensures mergerAvailable && !IsDir(Lookup(root, p)) ==> r == Err(DirectoryNotFound(p))
    ensures mergerAvailable && IsDir(Lookup(root, p)) ==> r == PlanListing(p, Lookup(root, p).value.children)
    ensures r.Ok? ==> r.value.folder == p
  {
    if !mergerAvailable then Err(MergerMissing)
    else match Lookup(root, p)
      case Some(Dir(_, kids)) => PlanListing(p, kids)
      case _ => Err(DirectoryNotFound(p))
  }

  predicate IsDir(node: Option<Entry>) {
    node.Some? && node.value.Dir?
  }
}

=== FILE: names.dfy ===
/** Character classes, ASCII lower-casing, substring search and the
    `pathlib` rule that splits a file name into stem and suffix. */
module Names {

  /** `[A-Za-z]` */
  predicate IsLetter(c: char) {
    'A' <= c <= 'Z' || 'a' <= c <= 'z'
  }

  /** `\d` and `str.isdigit`, restricted to ASCII. */
  predicate IsDigit(c: char) {
    '0' <= c <= '9'
  }

  predicate IsNonDigit(c: char) {
    !IsDigit(c)
  }

  predicate All(s: string, p: char -> bool) {
    forall i :: 0 <= i < |s| ==> p(s[i])
  }

  /** Length of the longest leading run of characters satisfying `p`:
      what a greedy `[...]*` consumes. */
  function RunLength(s: string, p: char -> bool): (n: nat)
    ensures n <= |s|
    ensures forall i :: 0 <= i < n ==> p(s[i])
    ensures n < |s| ==> !p(s[n])
  {
    if |s| == 0 || !p(s[0]) then 0 else 1 + RunLength(s[1..], p)
  }

  /** A run that is followed by a non-matching character (or the end) is the
      longest one, so greedy matching has only one possible stopping point. */
  lemma {:induction false} RunLengthUnique(s: string, p: char -> bool, k: nat)
    requires k <= |s|
    requires forall i :: 0 <= i < k ==> p(s[i])
    requires k < |s| ==> !p(s[k])
    ensures RunLength(s, p) == k
  {
    if k > 0 {
      RunLengthUnique(s[1..], p, k - 1);
    }
  }

  /** `str.lower` on one character, restricted to ASCII. */
  function LowerChar(c: char): char {
    if 'A' <= c <= 'Z' then (c as int + 32) as char else c
  }

  function Lower(s: string): (r: string)
    ensures |r| == |s|
    ensures forall i :: 0 <= i < |s| ==> r[i] == LowerChar(s[i])
  {
    seq(|s|, i requires 0 <= i < |s| => LowerChar(s[i]))
  }

  /** Lower-casing works character by character, so it distributes over
      concatenation. */
  lemma LowerAppend(a: string, b: string)
    ensures Lower(a + b) == Lower(a) + Lower(b)
  {
  }

  /** Lower-casing leaves digits alone and makes no digit out of a
      non-digit. */
  lemma LowerKeepsDigits(s: string)
    ensures All(Lower(s), IsDigit) <==> All(s, IsDigit)
    ensures All(Lower(s), IsNonDigit) <==> All(s, IsNonDigit)
    ensures All(s, IsDigit) ==> Lower(s) == s
  {
  }

  lemma LowerTwice(s: string)
    ensures Lower(Lower(s)) == Lower(s)
  {
  }

  /** Python's `sub in s` for strings. */
  predicate Contains(s: string, sub: string) {
    exists i | 0 <= i <= |s| :: OccursAt(s, sub, i)
  }

  predicate OccursAt(s: string, sub: string, i: int) {
    0 <= i && i + |sub| <= |s| && s[i..i + |sub|] == sub
  }

  /** `str.rfind(c)`: the last index holding `c`, or -1. */
  function LastIndexOf(s: string, c: char): (r: int)
    ensures -1 <= r < |s|
    ensures 0 <= r ==> s[r] == c
    ensures forall j :: r < j < |s| ==> s[j] != c
  {
    if |s| == 0 then -1
    else if s[|s| - 1] == c then |s| - 1
    else LastIndexOf(s[..|s| - 1], c)
  }

  /** Whether `pathlib` splits `name` at its last dot: the dot must be
      neither the first nor the last character. */
  predicate HasSuffix(name: string) {
    var i := LastIndexOf(name, '.');
    0 < i < |name| - 1
  }

  /** `PurePath.suffix` */
  function Suffix(name: string): string {
    if HasSuffix(name) then name[LastIndexOf(name, '.')..] else ""
  }

  /** `PurePath.stem` */
  function Stem(name: string): string {
    if HasSuffix(name) then name[..LastIndexOf(name, '.')] else name
  }

  /** Stem and suffix partition the name; a non-empty suffix is a dot
      followed by at least one character and no further dot, and the
      stem it leaves is non-empty. */
  lemma StemSuffixSplit(name: string)
    ensures Stem(name) + Suffix(name) == name
    ensures Suffix(name) == "" || (|Suffix(name)| >= 2 && Suffix(name)[0] == '.' && |Stem(name)| >= 1)
    ensures forall j :: 0 < j < |Suffix(name)| ==> Suffix(name)[j] != '.'
  {
    if HasSuffix(name) {
      var i := LastIndexOf(name, '.');
      assert name[..i] + name[i..] == name;
      forall j | 0 < j < |Suffix(name)|
        ensures Suffix(name)[j] != '.'
      {
        assert Suffix(name)[j] == name[i + j];
      }
    }
  }

  /** Whether the lower-cased suffix is `.pdf`. */
  predicate IsPdfName(name: string) {
    Lower(Suffix(name)) == ".pdf"
  }

  /** The same test stated without `pathlib`: the name is at least one
      character followed by `.pdf` in any mix of case. */
  lemma {:induction false} IsPdfNameEndsWith(name: string)
    ensures IsPdfName(name) <==> |name| > 4 && Lower(name[|name| - 4..]) == ".pdf"
  {
    var n := |name|;
    if IsPdfName(name) {
      var i := LastIndexOf(name, '.');
      assert HasSuffix(name) by {
        if !HasSuffix(name) {
          assert false;
        }
      }
      assert |name[i..]| == 4;
      assert i == n - 4;
    }
    if n > 4 && Lower(name[n - 4..]) == ".pdf" {
      assert LowerChar(name[n - 4]) == '.';
      assert name[n - 4] == '.';
      assert LowerChar(name[n - 3]) == 'p' && LowerChar(name[n - 2]) == 'd' && LowerChar(name[n - 1]) == 'f';
      assert name[n - 3] != '.' && name[n - 2] != '.' && name[n - 1] != '.';
      var i := LastIndexOf(name, '.');
      assert i >= n - 4;
      assert i == n - 4;
      assert Suffix(name) == name[n - 4..];
    }
  }

  /** Lower-casing commutes with taking the stem: a dot is its own lower case. */
  lemma LowerStem(name: string)
    ensures Lower(Stem(name)) == Stem(Lower(name))
  {
    var ln := Lower(name);
    LastIndexOfLower(name);
    if HasSuffix(name) {
      var i := LastIndexOf(name, '.');
      assert Lower(name[..i]) == ln[..i];
    }
  }

  lemma {:induction false} LastIndexOfLower(s: string)
    ensures LastIndexOf(Lower(s), '.') == LastIndexOf(s, '.')
    decreases |s|
  {
    if |s| > 0 {
      var ls := Lower(s);
      assert ls[|s| - 1] == '.' <==> s[|s| - 1] == '.';
      assert Lower(s[..|s| - 1]) == ls[..|s| - 1];
      LastIndexOfLower(s[..|s| - 1]);
    }
  }

  /** Appending `.pdf` to a non-empty name gives back that name as the stem;
      for the empty name (`Path('/').name`) the stem is `.pdf` itself. */
  lemma PdfNameStem(n: string)
    ensures n != "" ==> Stem(n + ".pdf") == n && Suffix(n + ".pdf") == ".pdf"
    ensures n == "" ==> Stem(n + ".pdf") == ".pdf" && Suffix(n + ".pdf") == ""
  {
    var s := n + ".pdf";
    var k := |n|;
    assert s[k] == '.' && s[k + 1] == 'p' && s[k + 2] == 'd' && s[k + 3] == 'f';
    var i := LastIndexOf(s, '.');
    assert i == k;
    assert s[..k] == n;
  }
}

=== FILE: natural_sort.dfy ===
/** `natural_sort`: names are compared by a key that splits them into
    alternating text and digit runs (`re.split(r"(\d+)", name)`); digit runs
    compare as integers, text runs as lower-cased strings, and `sorted` keeps
    names with equal keys in their input order. */
module NaturalSort {
  import opened Names
  import opened Lex
  import opened StableSort
  import opened Seqs

  // ---------------------------------------------------------------------------
  // Splitting a name into runs

  function Concat(parts: seq<string>): string {
    if |parts| == 0 then "" else parts[0] + Concat(parts[1..])
  }

  /** What `re.split(r"(\d+)", s)` returns: text, digits, text, ..., text, the
      digit runs being the maximal ones, so every text run between two digit
      runs is non-empty while the first and last may be empty. */
  ghost predicate IsRunSplit(parts: seq<string>, s: string) {
    && |parts| % 2 == 1
    && Concat(parts) == s
    && (forall i :: 0 <= i < |parts| && i % 2 == 0 ==> All(parts[i], IsNonDigit))
    && (forall i :: 0 <= i < |parts| && i % 2 == 1 ==> |parts[i]| > 0 && All(parts[i], IsDigit))
    && (forall i :: 0 < i < |parts| - 1 && i % 2 == 0 ==> |parts[i]| > 0)
  }

  function Split(s: string): (parts: seq<string>)
    ensures IsRunSplit(parts, s)
    decreases |s|
  {
    var t := RunLength(s, IsNonDigit);
    if t == |s| then
      SplitWhole(s);
      [s]
    else
      var rest := s[t..];
      var d := RunLength(rest, IsDigit);
      var tail := Split(rest[d..]);
      AfterDigitRun(rest, d, tail);
      SplitConsStep(s, t, d, tail);
      [s[..t], rest[..d]] + tail
  }

  /** What follows a maximal digit run is empty or starts with a non-digit,
      so its run split starts with a non-empty text run unless it is a
      single run. */
  lemma AfterDigitRun(rest: string, d: nat, tail: seq<string>)
    requires d == RunLength(rest, IsDigit)
    requires IsRunSplit(tail, rest[d..])
    ensures |tail| == 1 || |tail[0]| > 0
  {
    if d < |rest| {
      assert rest[d..][0] == rest[d];
    }
    if |tail| > 1 && |tail[0]| == 0 {
      FirstRunDigit(tail, rest[d..]);
    }
  }

  /** A string without digits is one text run. */
  lemma SplitWhole(s: string)
    requires All(s, IsNonDigit)
    ensures IsRunSplit([s], s)
  {
    assert Concat([s]) == s + Concat([]);
  }

  /** The step of `Split` for a string holding a digit: its leading text run
      and digit run, followed by the run split of what is left. */
  lemma SplitConsStep(s: string, t: nat, d: nat, tail: seq<string>)
    requires t == RunLength(s, IsNonDigit) < |s|
    requires d == RunLength(s[t..], IsDigit)
    requires IsRunSplit(tail, s[t..][d..])
    requires |tail| == 1 || |tail[0]| > 0
    ensures IsRunSplit([s[..t], s[t..][..d]] + tail, s)
  {
    var rest := s[t..];
    var a, b, c := s[..t], rest[..d], rest[d..];
    RunPrefix(s, IsNonDigit);
    RunPrefix(rest, IsDigit);
    assert rest[0] == s[t];
    SplitAt(rest, d);
    SplitAt(s, t);
    Assoc3(a, b, c);
    RunSplitCons(a, b, tail, c);
  }

  /** The maximal run `RunLength` measures. */
  lemma RunPrefix(s: string, p: char -> bool)
    ensures All(s[..RunLength(s, p)], p)
  {
    var n := RunLength(s, p);
    assert forall i :: 0 <= i < n ==> s[..n][i] == s[i];
  }

  lemma ConcatCons2(a: string, b: string, tail: seq<string>)
    ensures Concat([a, b] + tail) == a + b + Concat(tail)
  {
    assert ([a, b] + tail)[1..] == [b] + tail;
    assert ([b] + tail)[1..] == tail;
  }

  /** If the first text run is empty, the string starts with a digit. */
  lemma FirstRunDigit(parts: seq<string>, s: string)
    requires IsRunSplit(parts, s)
    requires |parts| > 1 && |parts[0]| == 0
    ensures |s| > 0 && IsDigit(s[0])
  {
    assert Concat(parts) == parts[0] + Concat(parts[1..]);
    assert Concat(parts[1..]) == parts[1] + Concat(parts[2..]);
  }

  /** Prepending a text run and a digit run keeps the run-split shape, as long
      as the text run that now becomes interior is non-empty. */
  lemma RunSplitCons(a: string, b: string, tail: seq<string>, r: string)
    requires All(a, IsNonDigit)
    requires |b| > 0 && All(b, IsDigit)
    requires IsRunSplit(tail, r)
    requires |tail| == 1 || |tail[0]| > 0
    ensures IsRunSplit([a, b] + tail, a + b + r)
  {
    ConcatCons2(a, b, tail);
    var parts := [a, b] + tail;
    forall i | 0 <= i < |parts| && i % 2 == 0
      ensures All(parts[i], IsNonDigit)
    {
      if i >= 2 {
        assert parts[i] == tail[i - 2];
      }
    }
    forall i | 0 <= i < |parts| && i % 2 == 1
      ensures |parts[i]| > 0 && All(parts[i], IsDigit)
    {
      if i >= 2 {
        assert parts[i] == tail[i - 2];
      }
    }
    forall i | 0 < i < |parts| - 1 && i % 2 == 0
      ensures |parts[i]| > 0
    {
      assert parts[i] == tail[i - 2];
    }
  }

  /** Taking the first text run and digit run off a run split leaves a run
      split of the remainder, which is empty or starts with a non-digit. */
  lemma RunSplitUncons(parts: seq<string>, s: string)
    requires IsRunSplit(parts, s) && |parts| > 1
    ensures s == parts[0] + parts[1] + Concat(parts[2..])
    ensures IsRunSplit(parts[2..], Concat(parts[2..]))
    ensures |Concat(parts[2..])| == 0 || !IsDigit(Concat(parts[2..])[0])
  {
    var tail := parts[2..];
    assert parts == [parts[0], parts[1]] + tail;
    ConcatCons2(parts[0], parts[1], tail);
    forall i | 0 <= i < |tail| && i % 2 == 0
      ensures All(tail[i], IsNonDigit)
    {
      assert tail[i] == parts[i + 2];
    }
    forall i | 0 <= i < |tail| && i % 2 == 1
      ensures |tail[i]| > 0 && All(tail[i], IsDigit)
    {
      assert tail[i] == parts[i + 2];
    }
    forall i | 0 < i < |tail| - 1 && i % 2 == 0
      ensures |tail[i]| > 0
    {
      assert tail[i] == parts[i + 2];
    }
    if |Concat(tail)| > 0 {
      assert Concat(tail) == tail[0] + Concat(tail[1..]);
    }
  }

  /** One step of `Split` on a string that contains a digit. */
  lemma SplitStep(s: string, t: nat, d: nat)
    requires t == RunLength(s, IsNonDigit) < |s|
    requires d == RunLength(s[t..], IsDigit)
    ensures Split(s) == [s[..t], s[t..][..d]] + Split(s[t..][d..])
  {
    AfterDigitRun(s[t..], d, Split(s[t..][d..]));
  }

  /** The run split of a string is unique: `Split` is the only sequence of
      runs with the shape `re.split` promises. */
  lemma {:induction false} SplitUnique(parts: seq<string>, s: string)
    requires IsRunSplit(parts, s)
    ensures parts == Split(s)
    decreases |s|
  {
    if |parts| == 1 {
      assert parts[1..] == [];
      assert Concat(parts) == parts[0] + Concat(parts[1..]);
      assert Concat(parts[1..]) == "" && parts[0] + "" == parts[0];
      assert parts == [s];
      SplitNoDigit(s);
    } else {
      RunSplitUncons(parts, s);
      SplitUnique(parts[2..], Concat(parts[2..]));
      SplitUniqueStep(parts, s);
    }
  }

  lemma SplitNoDigit(s: string)
    requires All(s, IsNonDigit)
    ensures Split(s) == [s]
  {
    RunLengthUnique(s, IsNonDigit, |s|);
  }

  /** The inductive step of `SplitUnique`: if the tail of a run split is the
      `Split` of its concatenation, the whole is the `Split` of the string. */
  lemma SplitUniqueStep(parts: seq<string>, s: string)
    requires IsRunSplit(parts, s) && |parts| > 1
    requires s == parts[0] + parts[1] + Concat(parts[2..])
    requires |Concat(parts[2..])| == 0 || !IsDigit(Concat(parts[2..])[0])
    requires parts[2..] == Split(Concat(parts[2..]))
    ensures parts == Split(s)
  {
    var p0, p1 := parts[0], parts[1];
    var r := Concat(parts[2..]);
    HeadRuns(p0, p1, r, s);
    SplitStep(s, |p0|, |p1|);
    assert parts == [p0, p1] + parts[2..];
  }

  /** The leading text and digit runs of a run split are the maximal runs
      `Split` takes off. */
  lemma HeadRuns(p0: string, p1: string, r: string, s: string)
    requires s == p0 + p1 + r
    requires All(p0, IsNonDigit) && |p1| > 0 && All(p1, IsDigit)
    requires |r| == 0 || !IsDigit(r[0])
    ensures RunLength(s, IsNonDigit) == |p0|
    ensures RunLength(s[|p0|..], IsDigit) == |p1|
    ensures s[..|p0|] == p0 && s[|p0|..][..|p1|] == p1 && s[|p0|..][|p1|..] == r
  {
    Assoc3(p0, p1, r);
    assert s[..|p0|] == p0 && s[|p0|] == p1[0];
    RunLengthUnique(s, IsNonDigit, |p0|);
    var rest := s[|p0|..];
    assert rest == p1 + r;
    assert rest[..|p1|] == p1 && rest[|p1|..] == r;
    RunLengthUnique(rest, IsDigit, |p1|);
  }

  // ---------------------------------------------------------------------------
  // The sort key

  datatype Chunk = Text(text: string) | Num(n: nat)

  /** `int(chunk)` for a run of ASCII digits. */
  function DecimalValue(digits: string): nat
    requires All(digits, IsDigit)
  {
    if |digits| == 0 then 0
    else DecimalValue(digits[..|digits| - 1]) * 10 + (digits[|digits| - 1] as int - '0' as int)
  }

  /** One element of the key tuple: `int(chunk)` if `chunk.isdigit()`
      (false for the empty string), `chunk.lower()` otherwise. */
  function ChunkOf(piece: string): Chunk {
    if |piece| > 0 && All(piece, IsDigit) then Num(DecimalValue(piece)) else Text(Lower(piece))
  }

  /** A text run (possibly empty) becomes its lower-cased form. */
  lemma ChunkOfText(piece: string)
    requires All(piece, IsNonDigit)
    ensures ChunkOf(piece) == Text(Lower(piece))
  {
    if |piece| > 0 {
      assert !IsDigit(piece[0]);
    }
  }

  /** The key tuple built from the pieces `re.split` returns. */
  function KeyOf(parts: seq<string>): (k: seq<Chunk>)
    ensures |k| == |parts| && forall i :: 0 <= i < |parts| ==> k[i] == ChunkOf(parts[i])
  {
    seq(|parts|, i requires 0 <= i < |parts| => ChunkOf(parts[i]))
  }

  function Key(name: string): (k: seq<Chunk>) {
    KeyOf(Split(name))
  }

  /** A key starts and ends with text and alternates text and numbers, so two
      keys hold chunks of the same kind at every common position and Python
      never has to compare an `int` with a `str`. */
  lemma KeyAlternates(name: string)
    ensures |Key(name)| % 2 == 1
    ensures forall i :: 0 <= i < |Key(name)| ==> (Key(name)[i].Num? <==> i % 2 == 1)
  {
    var parts := Split(name);
    forall i | 0 <= i < |parts| && i % 2 == 0
      ensures Key(name)[i].Text?
    {
      if |parts[i]| > 0 {
        assert !IsDigit(parts[i][0]);
      }
    }
  }

  // ---------------------------------------------------------------------------
  // Comparing keys

  predicate CharLess(a: char, b: char) {
    a < b
  }

  /** Python's `<` on `str`: code point by code point. */
  predicate StrLess(a: string, b: string) {
    LexLess(CharLess, a, b)
  }

  /** `<` between two key elements. Python raises on `int < str`; keys
      alternate (`KeyAlternates`), so the mixed cases are never consulted and
      are given a fixed order only to keep the relation total. */
  predicate ChunkLess(a: Chunk, b: Chunk) {
    match (a, b)
    case (Num(x), Num(y)) => x < y
    case (Text(x), Text(y)) => StrLess(x, y)
    case (Text(_), Num(_)) => true
    case (Num(_), Text(_)) => false
  }

  /** `<` between two key tuples. */
  predicate KeyLess(a: seq<Chunk>, b: seq<Chunk>) {
    LexLess(ChunkLess, a, b)
  }

  lemma ChunkOrder()
    ensures StrictTotal(ChunkLess)
  {
    forall x: Chunk
      ensures !ChunkLess(x, x)
    {
      if x.Text? {
        LexIrreflexive(CharLess, x.text);
      }
    }
    forall x: Chunk, y: Chunk, z: Chunk | ChunkLess(x, y) && ChunkLess(y, z)
      ensures ChunkLess(x, z)
    {
      if x.Text? && y.Text? && z.Text? {
        LexTransitive(CharLess, x.text, y.text, z.text);
      }
    }
    forall x: Chunk, y: Chunk | x != y
      ensures ChunkLess(x, y) || ChunkLess(y, x)
    {
      if x.Text? && y.Text? {
        LexConnected(CharLess, x.text, y.text);
      }
    }
  }

  /** The key order is a strict total order on keys; on names it is a total
      preorder, since distinct names (`f01`, `f1`) can share a key. */
  lemma KeyOrder(a: seq<Chunk>, b: seq<Chunk>, c: seq<Chunk>)
    ensures !KeyLess(a, a)
    ensures KeyLess(a, b) && KeyLess(b, c) ==> KeyLess(a, c)
    ensures a == b || KeyLess(a, b) || KeyLess(b, a)
  {
    ChunkOrder();
    LexIrreflexive(ChunkLess, a);
    if KeyLess(a, b) && KeyLess(b, c) {
      LexTransitive(ChunkLess, a, b, c);
    }
    LexConnected(ChunkLess, a, b);
  }

  /** Names without digits compare as their lower-cased forms do. */
  lemma {:induction false} TextOnlyCompare(a: string, b: string)
    requires All(a, IsNonDigit) && All(b, IsNonDigit)
    ensures KeyLess(Key(a), Key(b)) <==> StrLess(Lower(a), Lower(b))
    ensures Key(a) == Key(b) <==> Lower(a) == Lower(b)
  {
    TextKey(a);
    TextKey(b);
    var la, lb := Lower(a), Lower(b);
    var ka, kb := [Text(la)], [Text(lb)];
    assert ka[0] == Text(la) && kb[0] == Text(lb);
    if la == lb {
      LexIrreflexive(CharLess, la);
      assert ka[1..] == [] && kb[1..] == [];
      assert KeyLess(ka, kb) == LexLess(ChunkLess, ka[1..], kb[1..]);
    } else {
      assert ka != kb;
      assert KeyLess(ka, kb) == ChunkLess(Text(la), Text(lb));
    }
  }

  function MapLower(parts: seq<string>): (r: seq<string>)
    ensures |r| == |parts| && forall i :: 0 <= i < |parts| ==> r[i] == Lower(parts[i])
  {
    seq(|parts|, i requires 0 <= i < |parts| => Lower(parts[i]))
  }

  lemma {:induction false} ConcatLower(parts: seq<string>)
    ensures Concat(MapLower(parts)) == Lower(Concat(parts))
    decreases |parts|
  {
    if |parts| > 0 {
      assert MapLower(parts)[1..] == MapLower(parts[1..]);
      ConcatLower(parts[1..]);
      LowerAppend(parts[0], Concat(parts[1..]));
    }
  }

  /** Lower-casing a name lower-cases each of its runs and moves no run
      boundary, since it turns no letter into a digit or back. */
  lemma SplitLower(s: string)
    ensures Split(Lower(s)) == MapLower(Split(s))
  {
    var parts := Split(s);
    var lparts := MapLower(parts);
    ConcatLower(parts);
    forall i | 0 <= i < |parts|
      ensures All(lparts[i], IsDigit) <==> All(parts[i], IsDigit)
      ensures All(lparts[i], IsNonDigit) <==> All(parts[i], IsNonDigit)
    {
      LowerKeepsDigits(parts[i]);
    }
    assert IsRunSplit(lparts, Lower(s));
    SplitUnique(lparts, Lower(s));
  }

  /** A run and its lower-cased form give the same key element. */
  lemma ChunkOfLower(piece: string)
    ensures ChunkOf(Lower(piece)) == ChunkOf(piece)
  {
    LowerKeepsDigits(piece);
    LowerTwice(piece);
  }

  /** `chunk.lower()` makes the key blind to case: a name and its lower-cased
      form have the same key. */
  lemma KeyIgnoresCase(s: string)
    ensures Key(Lower(s)) == Key(s)
  {
    var parts := Split(s);
    SplitLower(s);
    forall i | 0 <= i < |parts|
      ensures KeyOf(MapLower(parts))[i] == KeyOf(parts)[i]
    {
      ChunkOfLower(parts[i]);
    }
  }

  /** Names that differ only in the case of their letters sort as equals, so
      `sorted` keeps them in their input order. */
  lemma CaseInsensitive(a: string, b: string)
    requires Lower(a) == Lower(b)
    ensures Key(a) == Key(b)
  {
    KeyIgnoresCase(a);
    KeyIgnoresCase(b);
  }

  /** A name without digits has a one-element key. */
  lemma TextKey(a: string)
    requires All(a, IsNonDigit)
    ensures Key(a) == [Text(Lower(a))]
  {
    assert Concat([a]) == a + Concat([]);
    assert IsRunSplit([a], a);
    SplitUnique([a], a);
    ChunkOfText(a);
    var k := KeyOf([a]);
    assert |k| == 1 && k[0] == ChunkOf(a);
  }

  /** Names that agree except in one digit run, with no digit before it,
      compare by the numeric value of that run, whatever its leading zeros:
      `a2.pdf` sorts before `a10.pdf`, and `f01.pdf` ties with `f1.pdf`. */
  lemma DigitRunCompare(t: string, d1: string, d2: string, u: string)
    requires All(t, IsNonDigit)
    requires |d1| > 0 && All(d1, IsDigit) && |d2| > 0 && All(d2, IsDigit)
    requires |u| == 0 || !IsDigit(u[0])
    ensures KeyLess(Key(t + d1 + u), Key(t + d2 + u)) <==> DecimalValue(d1) < DecimalValue(d2)
    ensures Key(t + d1 + u) == Key(t + d2 + u) <==> DecimalValue(d1) == DecimalValue(d2)
  {
    KeyCons(t, d1, u);
    KeyCons(t, d2, u);
    NumberCompare(Text(Lower(t)), DecimalValue(d1), DecimalValue(d2), Key(u));
  }

  /** A shared leading text run and digit run do not take part in the
      comparison: names compare as what follows them does. With
      `DigitRunCompare` this orders `a1b2` before `a1b10`. */
  lemma SharedRunsCompare(t: string, d: string, s1: string, s2: string)
    requires All(t, IsNonDigit)
    requires |d| > 0 && All(d, IsDigit)
    requires |s1| == 0 || !IsDigit(s1[0])
    requires |s2| == 0 || !IsDigit(s2[0])
    ensures KeyLess(Key(t + d + s1), Key(t + d + s2)) <==> KeyLess(Key(s1), Key(s2))
    ensures Key(t + d + s1) == Key(t + d + s2) <==> Key(s1) == Key(s2)
  {
    KeyCons(t, d, s1);
    KeyCons(t, d, s2);
    SharedPrefixCompare([Text(Lower(t)), Num(DecimalValue(d))], Key(s1), Key(s2));
  }

  /** A shared two-chunk prefix does not affect the key order. */
  lemma SharedPrefixCompare(p: seq<Chunk>, k1: seq<Chunk>, k2: seq<Chunk>)
    requires |p| == 2
    ensures KeyLess(p + k1, p + k2) <==> KeyLess(k1, k2)
    ensures p + k1 == p + k2 <==> k1 == k2
  {
    var a1, a2 := [p[1]] + k1, [p[1]] + k2;
    assert (p + k1)[0] == (p + k2)[0] && (p + k1)[1..] == a1 && (p + k2)[1..] == a2;
    assert KeyLess(p + k1, p + k2) == LexLess(ChunkLess, a1, a2);
    assert a1[0] == a2[0] && a1[1..] == k1 && a2[1..] == k2;
    assert LexLess(ChunkLess, a1, a2) == LexLess(ChunkLess, k1, k2);
    if p + k1 == p + k2 {
      assert k1 == (p + k1)[2..];
    }
  }

  /** Keys that differ only in one number compare by that number. */
  lemma NumberCompare(a: Chunk, v1: nat, v2: nat, rest: seq<Chunk>)
    ensures KeyLess([a, Num(v1)] + rest, [a, Num(v2)] + rest) <==> v1 < v2
    ensures [a, Num(v1)] + rest == [a, Num(v2)] + rest <==> v1 == v2
  {
    var k1, k2 := [a, Num(v1)] + rest, [a, Num(v2)] + rest;
    assert k1[0] == k2[0] && k1[1] == Num(v1) && k2[1] == Num(v2);
    assert k1[1..] == [Num(v1)] + rest && k2[1..] == [Num(v2)] + rest;
    assert KeyLess(k1, k2) == LexLess(ChunkLess, k1[1..], k2[1..]);
    if v1 == v2 {
      ChunkOrder();
      LexIrreflexive(ChunkLess, k1[1..]);
    } else {
      assert k1[1..][0] != k2[1..][0];
    }
  }

  /** The key of a text run, a digit run and a rest that does not start
      with a digit: the text, the number, then the key of the rest. */
  lemma KeyCons(t: string, d: string, u: string)
    requires All(t, IsNonDigit)
    requires |d| > 0 && All(d, IsDigit)
    requires |u| == 0 || !IsDigit(u[0])
    ensures Key(t + d + u) == [Text(Lower(t)), Num(DecimalValue(d))] + Key(u)
  {
    var s := t + d + u;
    HeadRuns(t, d, u, s);
    SplitStep(s, |t|, |d|);
    KeyOfCons(t, d, Split(u));
    ChunkOfText(t);
    assert ChunkOf(d) == Num(DecimalValue(d));
  }

  lemma KeyOfCons(a: string, b: string, parts: seq<string>)
    ensures KeyOf([a, b] + parts) == [ChunkOf(a), ChunkOf(b)] + KeyOf(parts)
  {
    var l, r := KeyOf([a, b] + parts), [ChunkOf(a), ChunkOf(b)] + KeyOf(parts);
    forall i | 0 <= i < |l|
      ensures l[i] == r[i]
    {
      if i >= 2 {
        assert ([a, b] + parts)[i] == parts[i - 2];
      }
    }
  }

  /** `a2` sorts before `a10`: the digit runs compare as numbers. (The names
      are parameters so that the solver does not evaluate `Split` on literals.) */
  lemma NumericExample(a2: string, a10: string)
    requires a2 == "a2" && a10 == "a10"
    ensures KeyLess(Key(a2), Key(a10))
    ensures NaturalSort([a10, a2]) == [a2, a10]
  {
    assert a2 == "a" + "2" + "" && a10 == "a" + "10" + "";
    assert DecimalValue("10") == 10 by {
      assert "10"[..1] == "1";
    }
    DigitRunCompare("a", "2", "10", "");
    SortTwo(a10, a2, Key, KeyLess);
  }

  /** The same holds for the file names the combiner sorts: `a2.pdf` is
      merged before `a10.pdf`. */
  lemma PdfNumericExample(a2: string, a10: string)
    requires a2 == "a2.pdf" && a10 == "a10.pdf"
    ensures KeyLess(Key(a2), Key(a10))
    ensures NaturalSort([a10, a2]) == [a2, a10]
  {
    assert a2 == "a" + "2" + ".pdf" && a10 == "a" + "10" + ".pdf";
    assert DecimalValue("10") == 10 by {
      assert "10"[..1] == "1";
    }
    DigitRunCompare("a", "2", "10", ".pdf");
    SortTwo(a10, a2, Key, KeyLess);
  }

  /** `f01` and `f1` share a key, and the sort keeps them in input order
      whichever comes first. */
  lemma StableExample(f01: string, f1: string)
    requires f01 == "f01" && f1 == "f1"
    ensures Key(f01) == Key(f1)
    ensures NaturalSort([f01, f1]) == [f01, f1]
    ensures NaturalSort([f1, f01]) == [f1, f01]
  {
    assert f01 == "f" + "01" + "" && f1 == "f" + "1" + "";
    assert DecimalValue("01") == 1 by {
      assert "01"[..1] == "0";
    }
    DigitRunCompare("f", "01", "1", "");
    KeyOrder(Key(f1), Key(f1), Key(f1));
    SortTwo(f01, f1, Key, KeyLess);
    SortTwo(f1, f01, Key, KeyLess);
  }

  /** The key order as a relation, for the generic sort. */
  lemma KeyLessStrictTotal()
    ensures StrictTotal(KeyLess)
  {
    forall a: seq<Chunk>, b: seq<Chunk>, c: seq<Chunk>
      ensures !KeyLess(a, a)
      ensures KeyLess(a, b) && KeyLess(b, c) ==> KeyLess(a, c)
      ensures a == b || KeyLess(a, b) || KeyLess(b, a)
    {
      KeyOrder(a, b, c);
    }
  }

  // ---------------------------------------------------------------------------
  // The sort

  /** `natural_sort` on the names of the paths (all paths it sorts share one parent). */
  function NaturalSort(names: seq<string>): seq<string> {
    Sort(names, Key, KeyLess)
  }

  /** `natural_sort` returns a permutation of its input, ordered
      non-decreasingly by key, in which names of equal key keep their input
      order. */
  lemma NaturalSortCorrect(names: seq<string>)
    ensures multiset(NaturalSort(names)) == multiset(names)
    ensures forall i, j :: 0 <= i < j < |NaturalSort(names)| ==>
              !KeyLess(Key(NaturalSort(names)[j]), Key(NaturalSort(names)[i]))
    ensures forall k :: WithKey(NaturalSort(names), Key, k) == WithKey(names, Key, k)
  {
    KeyLessStrictTotal();
    SortCorrect(names, Key, KeyLess);
  }
}

=== FILE: organize.dfy ===
/** `organize`: every regular file of a directory whose suffix is `.pdf` (any
    case) and whose name starts with letters, digits and a hyphen is moved
    into the sibling folder `<prefix> PDFs`, created on demand, unless that
    folder already holds an entry of the same name. */
module Organize {
  import opened Errors
  import opened Names
  import opened Prefix
  import opened Tree
  import opened Seqs

  /** What happened to one PDF of the listing (the program's printed lines). */
  datatype Step =
    | Moved(file: string, folder: string)          // "Moving ... -> folder/"
    | AlreadyFiled(file: string, folder: string)   // "Already exists, skipping"
    | NoPrefix(file: string)                       // "Skipping (no prefix match)"

  /** The directory's listing after the run, the steps taken, and the error
      that stopped the run part-way, if any. */
  datatype Run = Run(children: seq<Entry>, steps: seq<Step>, crash: Option<Error>)

  /** `is_file()` and `suffix.lower() == ".pdf"` */
  predicate IsPdfFile(e: Entry) {
    e.File? && IsPdfName(e.name)
  }

  /** A regular file the organiser leaves alone: not a PDF, or a PDF without
      a prefix. */
  predicate IsOther(e: Entry) {
    e.File? && !Eligible(e)
  }

  /** A PDF the organiser will try to file away. */
  predicate Eligible(e: Entry) {
    IsPdfFile(e) && TargetFolder(e.name).Some?
  }

  function FolderOf(e: Entry): string
    requires Eligible(e)
  {
    TargetFolder(e.name).value
  }

  /** The listing of the folder called `folder`, empty if there is no such
      directory. */
  function FolderKids(kids: seq<Entry>, folder: string): seq<Entry> {
    match Find(kids, folder)
    case Some(Dir(_, ks)) => ks
    case _ => []
  }

  /** `(dir / folder / n).exists()` */
  predicate Holds(kids: seq<Entry>, folder: string, n: string) {
    match Find(kids, folder)
    case Some(Dir(_, ks)) => Find(ks, n).Some?
    case _ => false
  }

  /** Whether `dir / m` is a regular file. */
  predicate IsFileAt(kids: seq<Entry>, m: string) {
    Find(kids, m).Some? && Find(kids, m).value.File?
  }

  lemma EligibleNames(f: Entry)
    requires Eligible(f)
    ensures FolderOf(f) != f.name
  {
    FolderIsNotPdf(f.name);
  }

  /** Files the PDF `f` of the listing `kids` under `folder`:
      `mkdir(exist_ok=True)`, which fails when a file holds the name, then the
      existence check, then the move. */
  function FileInto(kids: seq<Entry>, f: Entry, folder: string): (r: Result<(seq<Entry>, Step)>)
    requires f.File? && folder != f.name && UniqueNames(kids) && f in kids
    ensures r.Err? <==> IsFileAt(kids, folder)
    ensures r.Err? ==> r.error == FolderIsAFile(folder)
    ensures r.Ok? ==> UniqueNames(r.value.0) && FilesIn(r.value.0) == FilesIn(kids)
    ensures r.Ok? ==> Find(r.value.0, folder).Some? && Find(r.value.0, folder).value.Dir?
    ensures r.Ok? && Holds(kids, folder, f.name) ==> r.value == (kids, AlreadyFiled(f.name, folder))
    ensures r.Ok? && !Holds(kids, folder, f.name) ==>
              && r.value.1 == Moved(f.name, folder)
              && Find(r.value.0, f.name) == None
              && Find(r.value.0, folder) == Some(Dir(folder, FolderKids(kids, folder) + [f]))
    ensures r.Ok? ==> forall m :: m != f.name && m != folder ==> Find(r.value.0, m) == Find(kids, m)
  {
    var found := Find(kids, folder);
    if found.Some? && found.value.File? then
      Err(FolderIsAFile(folder))
    else if found.Some? then
      var ks := found.value.children;
      assert found.value == Dir(folder, ks);
      if Find(ks, f.name).Some? then
        Ok((kids, AlreadyFiled(f.name, folder)))
      else
        MoveIntoExisting(kids, f, folder, ks);
        Ok((Replace(Without(kids, f.name), Dir(folder, ks + [f])), Moved(f.name, folder)))
    else
      MoveIntoNew(kids, f, folder);
      assert FolderKids(kids, folder) + [f] == [f];
      Ok((Without(kids, f.name) + [Dir(folder, [f])], Moved(f.name, folder)))
  }

  lemma MoveIntoExisting(kids: seq<Entry>, f: Entry, folder: string, ks: seq<Entry>)
    requires UniqueNames(kids) && f in kids && f.File? && folder != f.name
    requires Find(kids, folder) == Some(Dir(folder, ks))
    ensures var r := Replace(Without(kids, f.name), Dir(folder, ks + [f]));
            && UniqueNames(r)
            && FilesIn(r) == FilesIn(kids)
            && Find(r, f.name) == None
            && Find(r, folder) == Some(Dir(folder, ks + [f]))
            && forall m :: m != f.name && m != folder ==> Find(r, m) == Find(kids, m)
  {
    var w := Without(kids, f.name);
    var d := Dir(folder, ks + [f]);
    UniqueWithout(kids, f.name);
    UniqueReplace(w, d);
    MoveExistingFiles(kids, f, folder, ks);
    FindReplace(w, d, f.name);
    FindReplace(w, d, folder);
    forall m | m != f.name && m != folder
      ensures Find(Replace(w, d), m) == Find(kids, m)
    {
      FindReplace(w, d, m);
    }
  }

  lemma MoveExistingFiles(kids: seq<Entry>, f: Entry, folder: string, ks: seq<Entry>)
    requires UniqueNames(kids) && f in kids && f.File? && folder != f.name
    requires Find(kids, folder) == Some(Dir(folder, ks))
    ensures FilesIn(Replace(Without(kids, f.name), Dir(folder, ks + [f]))) == FilesIn(kids)
  {
    var w := Without(kids, f.name);
    var d := Dir(folder, ks + [f]);
    var r := Replace(w, d);
    UniqueWithout(kids, f.name);
    var i :| 0 <= i < |kids| && kids[i] == f;
    FilesWithout(kids, i);
    assert Find(w, folder) == Some(Dir(folder, ks));
    var j :| 0 <= j < |w| && w[j] == Dir(folder, ks);
    FilesReplace(w, j, d);
    AppendFile(ks, f);
    var a, fw, fk, ff := FilesIn(r), FilesIn(w), FilesIn(ks), multiset{f};
    assert FilesIn(kids) == fw + ff;
    assert a + fk == fw + (fk + ff);
    MultisetSwap(fw, fk, ff);
    MultisetCancel(a, fw + ff, fk);
  }

  lemma AppendFile(ks: seq<Entry>, f: Entry)
    requires f.File?
    ensures FilesIn(ks + [f]) == FilesIn(ks) + multiset{f}
  {
    FilesInAppend(ks, [f]);
    assert FilesIn([f]) == FilesOf(f) + FilesIn([f][1..]);
  }

  lemma MoveIntoNew(kids: seq<Entry>, f: Entry, folder: string)
    requires UniqueNames(kids) && f in kids && f.File? && folder != f.name
    requires Find(kids, folder) == None
    ensures var r := Without(kids, f.name) + [Dir(folder, [f])];
            && UniqueNames(r)
            && FilesIn(r) == FilesIn(kids)
            && Find(r, f.name) == None
            && Find(r, folder) == Some(Dir(folder, [f]))
            && forall m :: m != f.name && m != folder ==> Find(r, m) == Find(kids, m)
  {
    var w := Without(kids, f.name);
    var d := Dir(folder, [f]);
    var r := w + [d];
    UniqueWithout(kids, f.name);
    var i :| 0 <= i < |kids| && kids[i] == f;
    FilesWithout(kids, i);
    FilesInAppend(w, [d]);
    assert FilesIn([d]) == FilesOf(d) + FilesIn([d][1..]);
    assert FilesOf(d) == FilesIn([f]);
    assert FilesIn([f]) == FilesOf(f) + FilesIn([f][1..]);
    assert Find(w, folder) == None;
    forall a, b | 0 <= a < b < |r|
      ensures r[a].name != r[b].name
    {
      if b == |w| {
        assert r[a] == w[a];
      }
    }
    FindAppend(w, d, f.name);
    FindAppend(w, d, folder);
    forall m | m != f.name && m != folder
      ensures Find(r, m) == Find(kids, m)
    {
      FindAppend(w, d, m);
    }
  }

  // ---------------------------------------------------------------------------
  // The loop over the listing

  /** Whether `dir / m` is a directory. */
  predicate IsDirAt(kids: seq<Entry>, m: string) {
    Find(kids, m).Some? && Find(kids, m).value.Dir?
  }

  /** The loop's invariant: `snap` is what `iterdir()` returned (unique names),
      and every regular file of it not yet visited is still in the directory. */
  ghost predicate SnapshotOf(snap: seq<Entry>, kids: seq<Entry>) {
    && UniqueNames(snap)
    && UniqueNames(kids)
    && forall i :: 0 <= i < |snap| && snap[i].File? ==> snap[i] in kids
  }

  /** None of the eligible PDFs of `snap` is called `n`. */
  ghost predicate NotVisited(snap: seq<Entry>, n: string) {
    forall j :: 0 <= j < |snap| && Eligible(snap[j]) ==> snap[j].name != n
  }

  /** None of the eligible PDFs of `snap` is filed into a folder called `n`. */
  ghost predicate NoFolder(snap: seq<Entry>, n: string) {
    forall j :: 0 <= j < |snap| && Eligible(snap[j]) ==> FolderOf(snap[j]) != n
  }

  /** The `for file_path in directory.iterdir()` loop, over the listing taken
      when the loop starts; `kids` is the directory as it is now. An error
      from `mkdir` ends the run with the moves made so far. */
  function RunListing(snap: seq<Entry>, kids: seq<Entry>): (r: Run)
    requires SnapshotOf(snap, kids)
    decreases |snap|
  {
    if |snap| == 0 then Run(kids, [], None)
    else
      var e := snap[0];
      if !IsPdfFile(e) then
        RunListing(snap[1..], kids)
      else if TargetFolder(e.name).None? then
        var rest := RunListing(snap[1..], kids);
        Run(rest.children, [NoPrefix(e.name)] + rest.steps, rest.crash)
      else
        var folder := FolderOf(e);
        EligibleNames(e);
        match FileInto(kids, e, folder)
        case Err(err) => Run(kids, [], Some(err))
        case Ok((kids', step)) =>
          SnapshotAfterStep(snap, kids, folder, kids');
          var rest := RunListing(snap[1..], kids');
          Run(rest.children, [step] + rest.steps, rest.crash)
  }

  lemma SnapshotAfterStep(snap: seq<Entry>, kids: seq<Entry>, folder: string, kids': seq<Entry>)
    requires SnapshotOf(snap, kids) && |snap| > 0 && Eligible(snap[0]) && folder == FolderOf(snap[0])
    requires folder != snap[0].name
    requires FileInto(kids, snap[0], folder).Ok? && kids' == FileInto(kids, snap[0], folder).value.0
    ensures SnapshotOf(snap[1..], kids')
  {
    forall i | 0 <= i < |snap[1..]| && snap[1..][i].File?
      ensures snap[1..][i] in kids'
    {
      var x := snap[1..][i];
      assert x == snap[i + 1];
      FindMember(kids, x);
      assert x.name != snap[0].name;
      assert x.name != folder;
      assert Find(kids', x.name) == Find(kids, x.name);
    }
  }

  /** The run past a first entry that is not an eligible PDF. */
  lemma RunSkip(snap: seq<Entry>, kids: seq<Entry>)
    requires SnapshotOf(snap, kids) && |snap| > 0 && !Eligible(snap[0])
    ensures SnapshotOf(snap[1..], kids)
    ensures RunListing(snap, kids).crash == RunListing(snap[1..], kids).crash
    ensures RunListing(snap, kids).children == RunListing(snap[1..], kids).children
  {
  }

  /** The run past a first eligible PDF that was filed without error. */
  lemma RunStep(snap: seq<Entry>, kids: seq<Entry>, kids': seq<Entry>)
    requires SnapshotOf(snap, kids) && |snap| > 0 && Eligible(snap[0])
    requires FileInto(kids, snap[0], FolderOf(snap[0])).Ok?
    requires kids' == FileInto(kids, snap[0], FolderOf(snap[0])).value.0
    ensures SnapshotOf(snap[1..], kids')
    ensures RunListing(snap, kids).crash == RunListing(snap[1..], kids').crash
    ensures RunListing(snap, kids).children == RunListing(snap[1..], kids').children
  {
    EligibleNames(snap[0]);
    SnapshotAfterStep(snap, kids, FolderOf(snap[0]), kids');
  }

  /** One step seen from any other name: entries not involved are untouched,
      a folder's listing only gains the moved file, directories stay
      directories and files stay files. */
  lemma StepFacts(kids: seq<Entry>, e: Entry, folder: string, kids': seq<Entry>, fname: string, n: string)
    requires e.File? && folder != e.name && UniqueNames(kids) && e in kids
    requires FileInto(kids, e, folder).Ok? && kids' == FileInto(kids, e, folder).value.0
    requires fname != e.name && n != e.name
    ensures IsDirAt(kids, fname) ==> IsDirAt(kids', fname)
    ensures IsDirAt(kids', folder)
    ensures IsFileAt(kids', fname) == IsFileAt(kids, fname)
    ensures Find(FolderKids(kids', fname), n) == Find(FolderKids(kids, fname), n)
    ensures n != folder ==> Find(kids', n) == Find(kids, n)
  {
    if fname == folder && !Holds(kids, folder, e.name) {
      FindAppend(FolderKids(kids, folder), e, n);
    }
  }

  /** The run keeps the directory's files (nothing lost, nothing duplicated,
      nothing overwritten) and its names unique. */
  lemma {:induction false} RunConserves(snap: seq<Entry>, kids: seq<Entry>)
    requires SnapshotOf(snap, kids)
    ensures FilesIn(RunListing(snap, kids).children) == FilesIn(kids)
    ensures UniqueNames(RunListing(snap, kids).children)
    decreases |snap|
  {
    if |snap| > 0 {
      var e := snap[0];
      if !IsPdfFile(e) || TargetFolder(e.name).None? {
        RunConserves(snap[1..], kids);
      } else {
        var folder := FolderOf(e);
        EligibleNames(e);
        var r := FileInto(kids, e, folder);
        if r.Ok? {
          SnapshotAfterStep(snap, kids, folder, r.value.0);
          RunConserves(snap[1..], r.value.0);
        }
      }
    }
  }

  /** What the run's later entries inherit from the whole snapshot. */
  lemma TailNames(snap: seq<Entry>, n: string)
    requires |snap| > 0
    ensures NotVisited(snap, n) ==> NotVisited(snap[1..], n)
    ensures NoFolder(snap, n) ==> NoFolder(snap[1..], n)
  {
    forall j | 0 <= j < |snap[1..]|
      ensures snap[1..][j] == snap[j + 1]
    {
    }
  }

  /** The run at a first eligible PDF whose `mkdir` fails: nothing moves. */
  lemma RunHalt(snap: seq<Entry>, kids: seq<Entry>)
    requires SnapshotOf(snap, kids) && |snap| > 0 && Eligible(snap[0])
    requires FileInto(kids, snap[0], FolderOf(snap[0])).Err?
    ensures RunListing(snap, kids).children == kids
  {
    EligibleNames(snap[0]);
  }

  /** A name that no eligible PDF of `snap` has and that is no eligible PDF's
      folder keeps its entry through the run. */
  lemma {:induction false} RunFrame(snap: seq<Entry>, kids: seq<Entry>, n: string)
    requires SnapshotOf(snap, kids)
    requires NotVisited(snap, n)
    ensures NoFolder(snap, n) ==> Find(RunListing(snap, kids).children, n) == Find(kids, n)
    decreases |snap|
  {
    if |snap| > 0 && NoFolder(snap, n) {
      var e := snap[0];
      TailNames(snap, n);
      if !Eligible(e) {
        RunSkip(snap, kids);
        RunFrame(snap[1..], kids, n);
      } else {
        var folder := FolderOf(e);
        EligibleNames(e);
        if FileInto(kids, e, folder).Ok? {
          var kids' := FileInto(kids, e, folder).value.0;
          RunStep(snap, kids, kids');
          StepFacts(kids, e, folder, kids', n, n);
          RunFrame(snap[1..], kids', n);
        } else {
          RunHalt(snap, kids);
        }
      }
    }
  }

  /** Whether the run completes or stops part-way: a name that no eligible
      PDF has and that is no eligible PDF's folder keeps its entry (so does
      any `*.pdf` name no eligible PDF has, as no folder name ends in `.pdf`);
      a directory called `fname` stays a directory, and the entry called `n`
      inside it stays the same. */
  lemma {:induction false} RunKeeps(snap: seq<Entry>, kids: seq<Entry>, fname: string, n: string)
    requires SnapshotOf(snap, kids)
    requires NotVisited(snap, fname) && NotVisited(snap, n)
    ensures IsDirAt(kids, fname) ==> IsDirAt(RunListing(snap, kids).children, fname)
    ensures Find(FolderKids(RunListing(snap, kids).children, fname), n) == Find(FolderKids(kids, fname), n)
    ensures IsPdfName(n) ==> Find(RunListing(snap, kids).children, n) == Find(kids, n)
    ensures NoFolder(snap, n) ==> Find(RunListing(snap, kids).children, n) == Find(kids, n)
    decreases |snap|
  {
    RunFrame(snap, kids, n);
    if |snap| > 0 {
      var e := snap[0];
      TailNames(snap, fname);
      TailNames(snap, n);
      if !Eligible(e) {
        RunSkip(snap, kids);
        RunKeeps(snap[1..], kids, fname, n);
      } else {
        var folder := FolderOf(e);
        EligibleNames(e);
        FolderIsNotPdf(e.name);
        if FileInto(kids, e, folder).Ok? {
          var kids' := FileInto(kids, e, folder).value.0;
          RunStep(snap, kids, kids');
          StepFacts(kids, e, folder, kids', fname, n);
          RunKeeps(snap[1..], kids', fname, n);
        } else {
          RunHalt(snap, kids);
        }
      }
    }
  }

  /** Files that the run never visits as eligible PDFs stay where they are,
      even when the run stops part-way. */
  lemma {:induction false} RunKeepsFile(snap: seq<Entry>, kids: seq<Entry>, x: Entry)
    requires SnapshotOf(snap, kids)
    requires x in kids && x.File? && NotVisited(snap, x.name)
    ensures x in RunListing(snap, kids).children
    decreases |snap|
  {
    if |snap| > 0 {
      var e := snap[0];
      if !IsPdfFile(e) || TargetFolder(e.name).None? {
        RunKeepsFile(snap[1..], kids, x);
      } else {
        var folder := FolderOf(e);
        EligibleNames(e);
        var r := FileInto(kids, e, folder);
        if r.Ok? {
          FindMember(kids, x);
          assert Find(r.value.0, x.name) == Some(x);
          SnapshotAfterStep(snap, kids, folder, r.value.0);
          RunKeepsFile(snap[1..], r.value.0, x);
        }
      }
    }
  }

  /** The eligible PDF at `j` has its folder name taken by a regular file. */
  ghost predicate Blocked(snap: seq<Entry>, kids: seq<Entry>, j: int) {
    0 <= j < |snap| && Eligible(snap[j]) && IsFileAt(kids, FolderOf(snap[j]))
  }

  /** A step that succeeds changes no other folder name between "file" and
      "not a file". */
  lemma BlockedAfterStep(snap: seq<Entry>, kids: seq<Entry>, kids': seq<Entry>, j: int)
    requires SnapshotOf(snap, kids) && |snap| > 0 && Eligible(snap[0])
    requires FolderOf(snap[0]) != snap[0].name
    requires FileInto(kids, snap[0], FolderOf(snap[0])).Ok?
    requires kids' == FileInto(kids, snap[0], FolderOf(snap[0])).value.0
    requires 1 <= j < |snap|
    ensures Blocked(snap[1..], kids', j - 1) == Blocked(snap, kids, j)
  {
    assert snap[1..][j - 1] == snap[j];
    if Eligible(snap[j]) {
      FolderIsNotPdf(snap[j].name);
      StepFacts(kids, snap[0], FolderOf(snap[0]), kids', FolderOf(snap[j]), FolderOf(snap[j]));
    }
  }

  /** The run stops with an error only when some eligible PDF's folder name
      is taken by a regular file, and the error names a folder. */
  lemma {:induction false} RunCrashSound(snap: seq<Entry>, kids: seq<Entry>)
    requires SnapshotOf(snap, kids)
    requires RunListing(snap, kids).crash.Some?
    ensures exists j :: Blocked(snap, kids, j)
    ensures RunListing(snap, kids).crash.value.FolderIsAFile?
    decreases |snap|
  {
    var e := snap[0];
    if !IsPdfFile(e) || TargetFolder(e.name).None? {
      RunCrashSound(snap[1..], kids);
      var j :| Blocked(snap[1..], kids, j);
      assert snap[1..][j] == snap[j + 1];
      assert Blocked(snap, kids, j + 1);
    } else {
      var folder := FolderOf(e);
      EligibleNames(e);
      var r := FileInto(kids, e, folder);
      if r.Ok? {
        SnapshotAfterStep(snap, kids, folder, r.value.0);
        RunCrashSound(snap[1..], r.value.0);
        var j :| Blocked(snap[1..], r.value.0, j);
        BlockedAfterStep(snap, kids, r.value.0, j + 1);
      } else {
        assert Blocked(snap, kids, 0);
      }
    }
  }

  /** If some eligible PDF's folder name is taken by a regular file, the run
      stops with an error. */
  lemma {:induction false} RunCrashComplete(snap: seq<Entry>, kids: seq<Entry>, j: int)
    requires SnapshotOf(snap, kids)
    requires Blocked(snap, kids, j)
    ensures RunListing(snap, kids).crash.Some?
    decreases |snap|
  {
    var e := snap[0];
    if j > 0 {
      assert snap[1..][j - 1] == snap[j];
      if !Eligible(e) {
        RunSkip(snap, kids);
        RunCrashComplete(snap[1..], kids, j - 1);
      } else {
        var r := FileInto(kids, e, FolderOf(e));
        if r.Ok? {
          RunStep(snap, kids, r.value.0);
          EligibleNames(e);
          BlockedAfterStep(snap, kids, r.value.0, j);
          RunCrashComplete(snap[1..], r.value.0, j - 1);
        }
      }
    }
  }

  /** Where one eligible PDF ends up after a run that did not stop: its folder
      exists; if the folder already held its name before the run, the file is
      still in the directory and the folder's entry is the old one; otherwise
      the file has left the directory and is in the folder under its name. */
  lemma {:induction false} RunFate(snap: seq<Entry>, kids: seq<Entry>, j: int)
    requires SnapshotOf(snap, kids)
    requires 0 <= j < |snap| && Eligible(snap[j])
    requires RunListing(snap, kids).crash.None?
    ensures var x, r := snap[j], RunListing(snap, kids).children;
            && IsDirAt(r, FolderOf(x))
            && (Holds(kids, FolderOf(x), x.name) ==>
                  && Find(r, x.name) == Some(x)
                  && Find(FolderKids(r, FolderOf(x)), x.name) == Find(FolderKids(kids, FolderOf(x)), x.name))
            && (!Holds(kids, FolderOf(x), x.name) ==>
                  && Find(r, x.name) == None
                  && Find(FolderKids(r, FolderOf(x)), x.name) == Some(x))
    decreases |snap|
  {
    var x := snap[j];
    var xf := FolderOf(x);
    var e := snap[0];
    if j == 0 {
      RunFateFirst(snap, kids);
    } else {
      FolderIsNotPdf(x.name);
      assert snap[1..][j - 1] == x;
      assert e.name != x.name;
      if !IsPdfFile(e) || TargetFolder(e.name).None? {
        RunFate(snap[1..], kids, j - 1);
        assert RunListing(snap, kids).children == RunListing(snap[1..], kids).children;
      } else {
        var folder := FolderOf(e);
        EligibleNames(e);
        var kids' := FileInto(kids, e, folder).value.0;
        SnapshotAfterStep(snap, kids, folder, kids');
        assert RunListing(snap, kids).children == RunListing(snap[1..], kids').children;
        RunFate(snap[1..], kids', j - 1);
        FateAfterStep(kids, e, folder, kids', x);
      }
    }
  }

  /** Filing another PDF changes neither whether the folder of `x` holds its
      name nor what it holds under that name, and leaves `x` in place. */
  lemma FateAfterStep(kids: seq<Entry>, e: Entry, folder: string, kids': seq<Entry>, x: Entry)
    requires e.File? && folder != e.name && UniqueNames(kids) && e in kids
    requires FileInto(kids, e, folder).Ok? && kids' == FileInto(kids, e, folder).value.0
    requires Eligible(e) && Eligible(x) && x.name != e.name
    ensures Holds(kids', FolderOf(x), x.name) == Holds(kids, FolderOf(x), x.name)
    ensures Find(FolderKids(kids', FolderOf(x)), x.name) == Find(FolderKids(kids, FolderOf(x)), x.name)
  {
    FolderIsNotPdf(x.name);
    assert FolderOf(x) != e.name;
    StepFacts(kids, e, folder, kids', FolderOf(x), x.name);
    FindFolderKids(kids, FolderOf(x), x.name);
    FindFolderKids(kids', FolderOf(x), x.name);
  }

  /** `Holds` in terms of `FolderKids`. */
  lemma FindFolderKids(kids: seq<Entry>, folder: string, n: string)
    ensures Holds(kids, folder, n) <==> IsDirAt(kids, folder) && Find(FolderKids(kids, folder), n).Some?
  {
  }

  /** `RunFate` for the first entry of the listing: it is filed at once, and
      nothing later in the run touches its name or its folder. */
  lemma RunFateFirst(snap: seq<Entry>, kids: seq<Entry>)
    requires SnapshotOf(snap, kids)
    requires 0 < |snap| && Eligible(snap[0])
    requires RunListing(snap, kids).crash.None?
    ensures var x, r := snap[0], RunListing(snap, kids).children;
            && IsDirAt(r, FolderOf(x))
            && (Holds(kids, FolderOf(x), x.name) ==>
                  && Find(r, x.name) == Some(x)
                  && Find(FolderKids(r, FolderOf(x)), x.name) == Find(FolderKids(kids, FolderOf(x)), x.name))
            && (!Holds(kids, FolderOf(x), x.name) ==>
                  && Find(r, x.name) == None
                  && Find(FolderKids(r, FolderOf(x)), x.name) == Some(x))
  {
    var x := snap[0];
    var xf := FolderOf(x);
    FolderIsNotPdf(x.name);
    EligibleNames(x);
    var kids' := FileInto(kids, x, xf).value.0;
    SnapshotAfterStep(snap, kids, xf, kids');
    var rest := snap[1..];
    forall i | 0 <= i < |rest| && Eligible(rest[i])
      ensures rest[i].name != x.name && rest[i].name != xf
    {
      assert rest[i] == snap[i + 1];
    }
    RunKeeps(rest, kids', xf, x.name);
    FindMember(kids, x);
    if !Holds(kids, xf, x.name) {
      FindAppend(FolderKids(kids, xf), x, x.name);
    }
  }

  // ---------------------------------------------------------------------------
  // organize(directory)

  /** `organize(directory)`: `node` is what the path leads to. A path that is
      not a directory fails before anything is touched; otherwise the run
      keeps every file of the directory (none lost, none overwritten) and
      leaves every regular file that is not a prefixed PDF where it was. */
  function Organize(p: Path, node: Option<Entry>): (r: Result<Run>)
    requires node.Some? && node.value.Dir? ==> UniqueNames(node.value.children)
    ensures r.Err? <==> !(node.Some? && node.value.Dir?)
    ensures r.Err? ==> r.error == DirectoryNotFound(p)
    ensures r.Ok? ==> FilesIn(r.value.children) == FilesOf(node.value) && UniqueNames(r.value.children)
    ensures r.Ok? ==> forall i :: 0 <= i < |node.value.children| && IsOther(node.value.children[i]) ==>
                                 node.value.children[i] in r.value.children
  {
    if node.Some? && node.value.Dir? then
      var kids := node.value.children;
      assert SnapshotOf(kids, kids);
      RunConserves(kids, kids);
      forall i | 0 <= i < |kids| && IsOther(kids[i])
        ensures kids[i] in RunListing(kids, kids).children
      {
        RunKeepsFile(kids, kids, kids[i]);
      }
      Ok(RunListing(kids, kids))
    else
      Err(DirectoryNotFound(p))
  }

  /** The run over a directory stops part-way exactly when the folder name
      of some prefixed PDF is held by a regular file. */
  lemma OrganizeStops(p: Path, name: string, kids: seq<Entry>)
    requires UniqueNames(kids)
    ensures Organize(p, Some(Dir(name, kids))).value.crash.Some? <==> exists j :: Blocked(kids, kids, j)
  {
    assert SnapshotOf(kids, kids);
    var r := RunListing(kids, kids);
    assert Organize(p, Some(Dir(name, kids))).value == r;
    if r.crash.Some? {
      RunCrashSound(kids, kids);
    } else if exists j :: Blocked(kids, kids, j) {
      var j :| Blocked(kids, kids, j);
      RunCrashComplete(kids, kids, j);
    }
  }

  /** The outcome for each prefixed PDF of the directory after a complete
      run: its `<prefix> PDFs` folder exists (created even when the move is
      then skipped); the file stays put, and the folder keeps its old entry,
      exactly when that folder already held an entry of the same name;
      otherwise the file is now in the folder under its own name. */
  lemma OrganizeFiles(p: Path, name: string, kids: seq<Entry>, i: int)
    requires UniqueNames(kids)
    requires 0 <= i < |kids| && Eligible(kids[i])
    requires Organize(p, Some(Dir(name, kids))).value.crash.None?
    ensures var r := Organize(p, Some(Dir(name, kids))).value.children;
            var x := kids[i];
            var folder := FolderOf(x);
            && IsDirAt(r, folder)
            && (x in r <==> Holds(kids, folder, x.name))
            && (Holds(kids, folder, x.name) ==>
                  Find(FolderKids(r, folder), x.name) == Find(FolderKids(kids, folder), x.name))
            && (!Holds(kids, folder, x.name) ==> Find(FolderKids(r, folder), x.name) == Some(x))
  {
    assert SnapshotOf(kids, kids);
    var r := RunListing(kids, kids);
    assert Organize(p, Some(Dir(name, kids))).value == r;
    RunFate(kids, kids, i);
    RunConserves(kids, kids);
    if kids[i] in r.children {
      FindMember(r.children, kids[i]);
    }
  }
}

=== FILE: prefix.dfy ===
/** The organiser's prefix rule: `^(?P<prefix>[A-Za-z]+\d+)-` matched at the
    start of a file name, and the folder name built from the prefix. */
module Prefix {
  import opened Names
  import opened Errors

  /** The regular expression, evaluated greedily: a maximal run of letters, a
      maximal run of digits, then a hyphen. Letters and digits are disjoint, so
      backtracking cannot find another match. */
  function PrefixMatch(name: string): (r: Option<string>)
    ensures r.Some? ==> 2 <= |r.value| < |name| && name[|r.value|] == '-'
    ensures r.Some? ==> forall i :: 0 <= i < |r.value| ==> r.value[i] != '-'
  {
    var a := RunLength(name, IsLetter);
    var b := RunLength(name[a..], IsDigit);
    if 0 < a && 0 < b && a + b < |name| && name[a + b] == '-' then Some(name[..a + b])
    else None
  }

  /** `p` is some letters followed by some digits, split at `k`. */
  predicate SplitsAt(p: string, k: int) {
    0 < k < |p| && All(p[..k], IsLetter) && All(p[k..], IsDigit)
  }

  /** `name` has the form `L+ D+ '-' rest` and `p` is its `L+ D+` part. */
  ghost predicate HasPrefix(name: string, p: string) {
    && (exists k :: SplitsAt(p, k))
    && |p| < |name|
    && name[..|p|] == p
    && name[|p|] == '-'
  }

  /** The match succeeds with exactly the prefix `p` iff the name has the form
      `p + "-" + rest` with `p` letters then digits. */
  lemma PrefixMatchIff(name: string, p: string)
    ensures PrefixMatch(name) == Some(p) <==> HasPrefix(name, p)
  {
    if PrefixMatch(name) == Some(p) {
      MatchHasPrefix(name);
    }
    if HasPrefix(name, p) {
      var k :| SplitsAt(p, k);
      PrefixIsMatch(name, p, k);
    }
  }

  lemma MatchHasPrefix(name: string)
    requires PrefixMatch(name).Some?
    ensures HasPrefix(name, PrefixMatch(name).value)
  {
    var p := PrefixMatch(name).value;
    var a := RunLength(name, IsLetter);
    var b := RunLength(name[a..], IsDigit);
    assert SplitsAt(p, a) by {
      assert p[..a] == name[..a];
      assert p[a..] == name[a..][..b];
    }
  }

  lemma PrefixIsMatch(name: string, p: string, k: int)
    requires SplitsAt(p, k) && |p| < |name| && name[..|p|] == p && name[|p|] == '-'
    ensures PrefixMatch(name) == Some(p)
  {
    assert name[..k] == p[..k];
    RunLengthUnique(name, IsLetter, k);
    var rest := name[k..];
    assert rest[..|p| - k] == p[k..];
    assert rest[|p| - k] == '-';
    RunLengthUnique(rest, IsDigit, |p| - k);
    assert name[..|p|] == p;
  }

  /** No match at all iff no prefix of the required form exists. */
  lemma NoMatchIff(name: string)
    ensures PrefixMatch(name).None? <==> forall p :: !HasPrefix(name, p)
  {
    if PrefixMatch(name).Some? {
      PrefixMatchIff(name, PrefixMatch(name).value);
    } else {
      forall p
        ensures !HasPrefix(name, p)
      {
        PrefixMatchIff(name, p);
      }
    }
  }

  /** `f"{prefix} PDFs"` */
  function FolderFor(prefix: string): string {
    prefix + " PDFs"
  }

  /** The folder a matching file is filed under, if any. */
  function TargetFolder(name: string): (r: Option<string>)
    ensures r.Some? <==> PrefixMatch(name).Some?
    ensures r.Some? ==> |r.value| >= 7 && r.value[|r.value| - 5..] == " PDFs"
                        && r.value[..|r.value| - 5] == PrefixMatch(name).value
  {
    match PrefixMatch(name)
    case None => None
    case Some(p) => Some(FolderFor(p))
  }

  /** The folder name never has a `.pdf` suffix, so a folder created by the
      organiser is never itself taken for a PDF to organise. */
  lemma FolderIsNotPdf(name: string)
    requires TargetFolder(name).Some?
    ensures !IsPdfName(TargetFolder(name).value)
  {
    var f := TargetFolder(name).value;
    var n := |f|;
    IsPdfNameEndsWith(f);
    assert f[n - 4] == 'P';
    assert LowerChar(f[n - 4]) == 'p';
    assert Lower(f[n - 4..])[0] == 'p';
  }
}

=== FILE: seqs.dfy ===
/** Facts about sequences and multisets that several modules use. */
module Seqs {

  /** Concatenation is associative. */
  lemma Assoc3<T>(a: seq<T>, b: seq<T>, c: seq<T>)
    ensures a + b + c == a + (b + c)
  {
  }

  /** A sequence is its prefix followed by the rest. */
  lemma SplitAt<T>(s: seq<T>, i: nat)
    requires i <= |s|
    ensures s[..i] + s[i..] == s
  {
  }

  /** The concatenation of a sequence of sequences. */
  function Flatten<T>(ss: seq<seq<T>>): seq<T> {
    if |ss| == 0 then [] else ss[0] + Flatten(ss[1..])
  }

  /** Multiset union is commutative. */
  lemma MultisetComm<T>(a: multiset<T>, b: multiset<T>)
    ensures a + b == b + a
  {
  }

  /** Multiset union is associative. */
  lemma MultisetShift<T>(a: multiset<T>, b: multiset<T>, c: multiset<T>)
    ensures a + (b + c) == (a + b) + c
  {
  }

  /** The last two parts of a multiset union can be exchanged. */
  lemma MultisetSwap<T>(a: multiset<T>, b: multiset<T>, c: multiset<T>)
    ensures a + (b + c) == (a + c) + b
  {
  }

  /** A common part cancels from both sides of a multiset union. */
  lemma MultisetCancel<T>(a: multiset<T>, b: multiset<T>, x: multiset<T>)
    requires a + x == b + x
    ensures a == b
  {
    forall e
      ensures a[e] == b[e]
    {
      assert (a + x)[e] == (b + x)[e];
    }
  }
}

=== FILE: stable_sort.dfy ===
/** Stable insertion sort by a key, the behaviour of Python's
    `sorted(xs, key=key)`: the result is a permutation of the input, ordered
    non-decreasingly by key, and elements of equal key keep their input order. */
module StableSort {
  import opened Lex
  import opened Seqs

  /** No later element has a smaller key than an earlier one. */
  ghost predicate SortedBy<T, K>(s: seq<T>, key: T -> K, lt: (K, K) -> bool) {
    forall i, j :: 0 <= i < j < |s| ==> !lt(key(s[j]), key(s[i]))
  }

  /** The elements of `s` whose key is `k`, in their order in `s`. */
  function WithKey<T, K(==)>(s: seq<T>, key: T -> K, k: K): seq<T> {
    if |s| == 0 then []
    else (if key(s[0]) == k then [s[0]] else []) + WithKey(s[1..], key, k)
  }

  /** Places `x` after every element whose key is not greater than its own. */
  function Insert<T, K(==)>(x: T, s: seq<T>, key: T -> K, lt: (K, K) -> bool): seq<T> {
    if |s| == 0 then [x]
    else if lt(key(x), key(s[0])) then [x] + s
    else [s[0]] + Insert(x, s[1..], key, lt)
  }

  /** Inserts the elements one by one, each after the ones that came before it. */
  function Sort<T, K(==)>(s: seq<T>, key: T -> K, lt: (K, K) -> bool): seq<T> {
    if |s| == 0 then [] else Insert(s[|s| - 1], Sort(s[..|s| - 1], key, lt), key, lt)
  }

  /** On two elements the sort swaps them exactly when the second has the
      strictly smaller key. */
  lemma SortTwo<T, K>(x: T, y: T, key: T -> K, lt: (K, K) -> bool)
    ensures Sort([x, y], key, lt) == if lt(key(y), key(x)) then [y, x] else [x, y]
  {
    assert [x, y][..1] == [x];
    assert Sort([x], key, lt) == [x];
    assert [x][1..] == [];
    assert Sort([x, y], key, lt) == Insert(y, [x], key, lt);
  }

  lemma {:induction false} InsertPermutes<T, K>(x: T, s: seq<T>, key: T -> K, lt: (K, K) -> bool)
    ensures multiset(Insert(x, s, key, lt)) == multiset(s) + multiset{x}
  {
    if |s| > 0 && !lt(key(x), key(s[0])) {
      InsertPermutes(x, s[1..], key, lt);
      assert s == [s[0]] + s[1..];
    }
  }

  lemma {:induction false} InsertSorted<T, K(!new)>(x: T, s: seq<T>, key: T -> K, lt: (K, K) -> bool)
    requires StrictTotal(lt)
    requires SortedBy(s, key, lt)
    ensures SortedBy(Insert(x, s, key, lt), key, lt)
  {
    if |s| == 0 {
    } else if lt(key(x), key(s[0])) {
      var r := [x] + s;
      forall i, j | 0 <= i < j < |r|
        ensures !lt(key(r[j]), key(r[i]))
      {
        if i == 0 && j > 1 {
          assert !lt(key(s[j - 1]), key(s[0]));
        }
      }
    } else {
      var tail := Insert(x, s[1..], key, lt);
      InsertSorted(x, s[1..], key, lt);
      InsertPermutes(x, s[1..], key, lt);
      var r := [s[0]] + tail;
      forall j | 0 <= j < |tail|
        ensures !lt(key(tail[j]), key(s[0]))
      {
        assert tail[j] in multiset(tail);
        if tail[j] != x {
          assert tail[j] in multiset(s[1..]);
          var m :| 0 <= m < |s[1..]| && s[1..][m] == tail[j];
          assert s[m + 1] == tail[j];
        }
      }
      forall i, j | 0 <= i < j < |r|
        ensures !lt(key(r[j]), key(r[i]))
      {
        if i == 0 {
          assert r[j] == tail[j - 1];
        } else {
          assert r[i] == tail[i - 1] && r[j] == tail[j - 1];
        }
      }
    }
  }

  lemma {:induction false} WithKeyNone<T, K>(s: seq<T>, key: T -> K, k: K)
    requires forall i :: 0 <= i < |s| ==> key(s[i]) != k
    ensures WithKey(s, key, k) == []
  {
    if |s| > 0 {
      WithKeyNone(s[1..], key, k);
    }
  }

  lemma {:induction false} WithKeyAppend<T, K>(s: seq<T>, x: T, key: T -> K, k: K)
    ensures WithKey(s + [x], key, k) == WithKey(s, key, k) + (if key(x) == k then [x] else [])
  {
    if |s| > 0 {
      assert (s + [x])[1..] == s[1..] + [x];
      WithKeyAppend(s[1..], x, key, k);
    }
  }

  /** Inserting into a sorted sequence places `x` after all elements of equal key. */
  lemma {:induction false} InsertStable<T, K(!new)>(x: T, s: seq<T>, key: T -> K, lt: (K, K) -> bool, k: K)
    requires StrictTotal(lt)
    requires SortedBy(s, key, lt)
    ensures WithKey(Insert(x, s, key, lt), key, k) == WithKey(s, key, k) + (if key(x) == k then [x] else [])
  {
    if |s| == 0 {
    } else if lt(key(x), key(s[0])) {
      InsertFrontStable(x, s, key, lt, k);
    } else {
      SortedTail(s, key, lt);
      InsertStable(x, s[1..], key, lt, k);
      InsertAfterStable(x, s, key, lt, k);
    }
  }

  lemma SortedTail<T, K>(s: seq<T>, key: T -> K, lt: (K, K) -> bool)
    requires SortedBy(s, key, lt) && |s| > 0
    ensures SortedBy(s[1..], key, lt)
  {
    forall i, j | 0 <= i < j < |s| - 1
      ensures !lt(key(s[1..][j]), key(s[1..][i]))
    {
      assert s[1..][j] == s[j + 1] && s[1..][i] == s[i + 1];
    }
  }

  /** The case where `x` goes past the first element. */
  lemma InsertAfterStable<T, K>(x: T, s: seq<T>, key: T -> K, lt: (K, K) -> bool, k: K)
    requires |s| > 0 && !lt(key(x), key(s[0]))
    requires WithKey(Insert(x, s[1..], key, lt), key, k)
             == WithKey(s[1..], key, k) + (if key(x) == k then [x] else [])
    ensures WithKey(Insert(x, s, key, lt), key, k)
            == WithKey(s, key, k) + (if key(x) == k then [x] else [])
  {
    var tail := Insert(x, s[1..], key, lt);
    var head: seq<T> := if key(s[0]) == k then [s[0]] else [];
    var extra: seq<T> := if key(x) == k then [x] else [];
    assert ([s[0]] + tail)[1..] == tail;
    assert WithKey(Insert(x, s, key, lt), key, k) == head + (WithKey(s[1..], key, k) + extra);
    assert WithKey(s, key, k) == head + WithKey(s[1..], key, k);
    Assoc3(head, WithKey(s[1..], key, k), extra);
  }

  /** The case where `x` goes in front: no element of `s` shares its key. */
  lemma InsertFrontStable<T, K(!new)>(x: T, s: seq<T>, key: T -> K, lt: (K, K) -> bool, k: K)
    requires StrictTotal(lt)
    requires SortedBy(s, key, lt)
    requires |s| > 0 && lt(key(x), key(s[0]))
    ensures WithKey([x] + s, key, k) == WithKey(s, key, k) + (if key(x) == k then [x] else [])
  {
    assert ([x] + s)[1..] == s;
    if key(x) == k {
      forall i | 0 <= i < |s|
        ensures key(s[i]) != k
      {
        if i > 0 {
          assert !lt(key(s[i]), key(s[0]));
        }
      }
      WithKeyNone(s, key, k);
    }
  }

  /** The sort returns a permutation of its input, ordered non-decreasingly by
      key, in which elements of equal key keep their input order. */
  lemma {:induction false} SortCorrect<T, K(!new)>(s: seq<T>, key: T -> K, lt: (K, K) -> bool)
    requires StrictTotal(lt)
    ensures multiset(Sort(s, key, lt)) == multiset(s)
    ensures SortedBy(Sort(s, key, lt), key, lt)
    ensures forall k :: WithKey(Sort(s, key, lt), key, k) == WithKey(s, key, k)
  {
    if |s| > 0 {
      var init := s[..|s| - 1];
      var x := s[|s| - 1];
      assert s == init + [x];
      SortCorrect(init, key, lt);
      InsertPermutes(x, Sort(init, key, lt), key, lt);
      InsertSorted(x, Sort(init, key, lt), key, lt);
      forall k
        ensures WithKey(Sort(s, key, lt), key, k) == WithKey(s, key, k)
      {
        InsertStable(x, Sort(init, key, lt), key, lt, k);
        WithKeyAppend(init, x, key, k);
      }
    }
  }
}

=== FILE: targets.dfy ===
/** `resolve_combine_targets`: turning the folders the user named into the
    folders that actually get combined. */
module Targets {
  import opened Errors
  import opened Tree
  import opened Merge
  import opened Dedup
  import opened Seqs

  /** `any(is_merge_candidate(f, folder / f"{folder.name}.pdf") for f in
      folder.iterdir())` for a folder called `folderName` with listing
      `kids`. */
  predicate HasCandidate(kids: seq<Entry>, folderName: string) {
    Candidates(kids, OutputName(folderName)) != []
  }

  lemma HasCandidateIff(kids: seq<Entry>, folderName: string)
    ensures HasCandidate(kids, folderName) <==>
              exists i :: 0 <= i < |kids| && IsMergeCandidate(kids[i], OutputName(folderName))
  {
    var c := Candidates(kids, OutputName(folderName));
    if c != [] {
      assert c[0] in c;
    }
  }

  /** A subfolder worth combining: a directory with a candidate of its own. */
  predicate IsPdfSubfolder(k: Entry) {
    k.Dir? && HasCandidate(k.children, k.name)
  }

  /** The path `p / k.name` of an entry `k` of the listing of `p`. */
  function ChildPath(p: Path): Entry -> Path {
    (e: Entry) => p + [e.name]
  }

  /** The immediate subfolders of `p` that hold candidates, as paths. */
  function PdfSubfolders(p: Path, kids: seq<Entry>): (r: seq<Path>)
    ensures |r| <= |kids|
    ensures forall t :: t in r <==>
              exists i :: 0 <= i < |kids| && IsPdfSubfolder(kids[i]) && t == p + [kids[i].name]
  {
    Select(kids, IsPdfSubfolder, ChildPath(p))
  }

  /** `pdf_subfolders` keeps listing order: its `i`-th path names the
      listing's `i`-th subfolder with candidates. */
  lemma PdfSubfoldersOrder(p: Path, kids: seq<Entry>)
    ensures var r, idx := PdfSubfolders(p, kids), IndicesWhere(kids, IsPdfSubfolder, 0);
            |r| == |idx| && forall i :: 0 <= i < |r| ==> r[i] == p + [kids[idx[i]].name]
  {
    SelectOrder(kids, IsPdfSubfolder, ChildPath(p));
  }

  /** One iteration of the loop: the folder itself when it holds a
      candidate, otherwise its subfolders that do, otherwise an error. */
  function Expand(root: Entry, p: Path): (r: Result<seq<Path>>)
    ensures !IsDir(Lookup(root, p)) ==> r == Err(DirectoryNotFound(p))
    ensures IsDir(Lookup(root, p)) ==>
              var kids := Lookup(root, p).value.children;
              && (HasCandidate(kids, PathName(p)) ==> r == Ok([p]))
              && (!HasCandidate(kids, PathName(p)) ==>
                    if PdfSubfolders(p, kids) == [] then r == Err(NoPdfsBelow(p))
                    else r == Ok(PdfSubfolders(p, kids)))
    ensures r.Ok? ==> r.value != []
  {
    match Lookup(root, p)
    case Some(Dir(_, kids)) =>
      if HasCandidate(kids, PathName(p)) then Ok([p])
      else
        var subs := PdfSubfolders(p, kids);
        if subs == [] then Err(NoPdfsBelow(p)) else Ok(subs)
    case _ => Err(DirectoryNotFound(p))
  }

  /** `folders[i]` is the first folder that cannot be expanded, and `e` is
      why. */
  ghost predicate FailsFirstAt(root: Entry, folders: seq<Path>, i: int, e: Error) {
    && 0 <= i < |folders|
    && Expand(root, folders[i]) == Err(e)
    && forall j :: 0 <= j < i ==> Expand(root, folders[j]).Ok?
  }

  /** `t` is one of the targets `folders[i]` expands to. */
  ghost predicate ExpandsTo(root: Entry, folders: seq<Path>, i: int, t: Path) {
    0 <= i < |folders| && Expand(root, folders[i]).Ok? && t in Expand(root, folders[i]).value
  }

  /** The targets one folder expands to, or none when it cannot be expanded. */
  function TargetsOf(root: Entry, p: Path): seq<Path> {
    match Expand(root, p)
    case Ok(ts) => ts
    case Err(_) => []
  }

  /** Each folder's targets, position by position. */
  function Expansions(root: Entry, folders: seq<Path>): (r: seq<seq<Path>>)
    ensures |r| == |folders|
  {
    seq(|folders|, i requires 0 <= i < |folders| => TargetsOf(root, folders[i]))
  }

  lemma ExpansionsCons(root: Entry, folders: seq<Path>)
    requires |folders| > 0
    ensures Flatten(Expansions(root, folders)) == TargetsOf(root, folders[0]) + Flatten(Expansions(root, folders[1..]))
  {
    assert Expansions(root, folders)[1..] == Expansions(root, folders[1..]);
  }

  /** The loop over all folders, before duplicates are removed: the first
      folder that cannot be expanded stops everything; otherwise the targets
      are collected folder by folder, in order. */
  function Expanded(root: Entry, folders: seq<Path>): (r: Result<seq<Path>>)
    ensures r.Ok? <==> forall i :: 0 <= i < |folders| ==> Expand(root, folders[i]).Ok?
    ensures r.Err? ==> exists i :: FailsFirstAt(root, folders, i, r.error)
    ensures r.Ok? ==> forall t :: t in r.value <==> exists i :: ExpandsTo(root, folders, i, t)
    ensures r.Ok? ==> r.value == Flatten(Expansions(root, folders))
  {
    if |folders| == 0 then Ok([])
    else
      var rest := Expanded(root, folders[1..]);
      match Expand(root, folders[0])
      case Err(e) =>
        assert FailsFirstAt(root, folders, 0, e);
        Err(e)
      case Ok(here) =>
        match rest
        case Err(e) =>
          FailsLater(root, folders, e);
          Err(e)
        case Ok(more) =>
          ExpandsLater(root, folders, here, more);
          ExpansionsCons(root, folders);
          Ok(here + more)
  }

  lemma FailsLater(root: Entry, folders: seq<Path>, e: Error)
    requires |folders| > 0 && Expand(root, folders[0]).Ok?
    requires exists i :: FailsFirstAt(root, folders[1..], i, e)
    ensures exists i :: FailsFirstAt(root, folders, i, e)
  {
    var i :| FailsFirstAt(root, folders[1..], i, e);
    forall j | 0 <= j < i + 1
      ensures Expand(root, folders[j]).Ok?
    {
      if j > 0 {
        assert folders[j] == folders[1..][j - 1];
      }
    }
    assert FailsFirstAt(root, folders, i + 1, e);
  }

  lemma ExpandsLater(root: Entry, folders: seq<Path>, here: seq<Path>, more: seq<Path>)
    requires |folders| > 0 && Expand(root, folders[0]) == Ok(here)
    requires forall i :: 0 <= i < |folders[1..]| ==> Expand(root, folders[1..][i]).Ok?
    requires forall t :: t in more <==> exists i :: ExpandsTo(root, folders[1..], i, t)
    ensures forall i :: 0 <= i < |folders| ==> Expand(root, folders[i]).Ok?
    ensures forall t :: t in here + more <==> exists i :: ExpandsTo(root, folders, i, t)
  {
    forall i | 0 <= i < |folders|
      ensures Expand(root, folders[i]).Ok?
    {
      if i > 0 {
        assert folders[i] == folders[1..][i - 1];
      }
    }
    forall t
      ensures t in here + more <==> exists i :: ExpandsTo(root, folders, i, t)
    {
      if t in here {
        assert ExpandsTo(root, folders, 0, t);
      } else if t in more {
        var i :| ExpandsTo(root, folders[1..], i, t);
        assert folders[1..][i] == folders[i + 1];
        assert ExpandsTo(root, folders, i + 1, t);
      }
      if exists i :: ExpandsTo(root, folders, i, t) {
        var i :| ExpandsTo(root, folders, i, t);
        if i > 0 {
          assert folders[i] == folders[1..][i - 1];
          assert ExpandsTo(root, folders[1..], i - 1, t);
        }
      }
    }
  }

  /** `resolve_combine_targets`: the expansion with repeats removed, first
      occurrences kept. */
  function ResolveTargets(root: Entry, folders: seq<Path>): (r: Result<seq<Path>>)
    ensures r.Ok? <==> forall i :: 0 <= i < |folders| ==> Expand(root, folders[i]).Ok?
    ensures r.Err? ==> exists i :: FailsFirstAt(root, folders, i, r.error)
    ensures r.Ok? ==> NoDuplicates(r.value)
    ensures r.Ok? ==> forall t :: t in r.value <==> exists i :: ExpandsTo(root, folders, i, t)
    ensures r.Ok? ==> r.value == FirstOccurrences(Flatten(Expansions(root, folders)))
  {
    match Expanded(root, folders)
    case Err(e) => Err(e)
    case Ok(ts) =>
      FirstOccurrencesSpec(ts);
      Ok(FirstOccurrences(ts))
  }

  /** A subfolder target leads back to the directory it was chosen for. */
  lemma SubfolderTarget(root: Entry, p: Path, t: Path)
    requires WellFormed(root) && IsDir(Lookup(root, p))
    requires t in PdfSubfolders(p, Lookup(root, p).value.children)
    ensures IsDir(Lookup(root, t)) && HasCandidate(Lookup(root, t).value.children, PathName(t))
  {
    var kids := Lookup(root, p).value.children;
    var i :| 0 <= i < |kids| && IsPdfSubfolder(kids[i]) && t == p + [kids[i].name];
    LookupAppend(root, p, kids[i].name);
    LookupWellFormed(root, p);
    FindUnique(kids, i);
  }

  /** Every resolved target is a directory holding a candidate, and no
      target is listed twice; so combining a target never reports a missing
      directory or an empty folder. */
  lemma TargetsReady(root: Entry, folders: seq<Path>)
    requires WellFormed(root)
    ensures ResolveTargets(root, folders).Ok? ==>
              var ts := ResolveTargets(root, folders).value;
              && NoDuplicates(ts)
              && forall t :: t in ts ==>
                   && IsDir(Lookup(root, t))
                   && HasCandidate(Lookup(root, t).value.children, PathName(t))
                   && (PlanCombine(root, t, true).Err? ==> PlanCombine(root, t, true).error.OutputExists?)
  {
    if ResolveTargets(root, folders).Ok? {
      var raw := Expanded(root, folders).value;
      FirstOccurrencesSpec(raw);
      forall t | t in FirstOccurrences(raw)
        ensures IsDir(Lookup(root, t)) && HasCandidate(Lookup(root, t).value.children, PathName(t))
      {
        var i :| 0 <= i < |folders| && t in Expand(root, folders[i]).value;
        var p := folders[i];
        if !HasCandidate(Lookup(root, p).value.children, PathName(p)) {
          SubfolderTarget(root, p, t);
        }
      }
    }
  }
}

=== FILE: tree.dfy ===
/** An immutable model of the part of the filesystem the program looks at:
    a directory is its name and the sequence its listing returns, in
    listing order; a file is its name and its bytes. Paths are sequences of
    names relative to the root of the tree, which stands for the working
    directory. */
module Tree {
  import opened Errors
  import opened Seqs

  type Path = seq<string>

  datatype Entry = File(name: string, data: seq<bv8>) | Dir(name: string, children: seq<Entry>)

  /** No two entries of one listing share a name. */
  predicate UniqueNames(kids: seq<Entry>) {
    forall i, j :: 0 <= i < j < |kids| ==> kids[i].name != kids[j].name
  }

  /** Every directory in the tree has unique names: what a real filesystem
      guarantees. */
  ghost predicate WellFormed(e: Entry) {
    match e
    case File(_, _) => true
    case Dir(_, kids) => WellFormedKids(kids)
  }

  ghost predicate WellFormedKids(kids: seq<Entry>) {
    UniqueNames(kids) && forall i :: 0 <= i < |kids| ==> WellFormed(kids[i])
  }

  /** The entry called `n` in a listing (`dir / n` when it exists). */
  function Find(kids: seq<Entry>, n: string): (r: Option<Entry>)
    ensures r.Some? ==> r.value in kids && r.value.name == n
    ensures r.None? <==> forall i :: 0 <= i < |kids| ==> kids[i].name != n
  {
    if |kids| == 0 then None
    else if kids[0].name == n then Some(kids[0])
    else Find(kids[1..], n)
  }

  lemma {:induction false} FindUnique(kids: seq<Entry>, i: int)
    requires UniqueNames(kids) && 0 <= i < |kids|
    ensures Find(kids, kids[i].name) == Some(kids[i])
  {
    if i > 0 {
      assert kids[0].name != kids[i].name;
      FindUnique(kids[1..], i - 1);
    }
  }

  lemma FindMember(kids: seq<Entry>, e: Entry)
    requires UniqueNames(kids) && e in kids
    ensures Find(kids, e.name) == Some(e)
  {
    var i :| 0 <= i < |kids| && kids[i] == e;
    FindUnique(kids, i);
  }

  lemma {:induction false} FindAppend(kids: seq<Entry>, e: Entry, n: string)
    ensures Find(kids + [e], n) == if Find(kids, n).Some? then Find(kids, n) else if e.name == n then Some(e) else None
  {
    if |kids| > 0 {
      assert (kids + [e])[1..] == kids[1..] + [e];
      FindAppend(kids[1..], e, n);
    }
  }

  /** The node a path leads to, if any. */
  function Lookup(root: Entry, p: Path): (r: Option<Entry>)
    ensures p == [] ==> r == Some(root)
    ensures r.Some? && p != [] ==> r.value.name == p[|p| - 1]
    decreases |p|
  {
    if p == [] then Some(root)
    else match root
      case File(_, _) => None
      case Dir(_, kids) =>
        match Find(kids, p[0])
        case None => None
        case Some(child) => if |p| == 1 then Some(child) else Lookup(child, p[1..])
  }

  /** `path.name`: the last component, empty for the root. */
  function PathName(p: Path): string {
    if p == [] then "" else p[|p| - 1]
  }

  /** `dir / n` one level below a path. */
  lemma {:induction false} LookupAppend(root: Entry, p: Path, n: string)
    ensures Lookup(root, p + [n]) ==
              if Lookup(root, p).Some? && Lookup(root, p).value.Dir?
              then Find(Lookup(root, p).value.children, n) else None
    decreases |p|
  {
    if p != [] && root.Dir? {
      match Find(root.children, p[0])
      case None =>
      case Some(child) =>
        assert (p + [n])[1..] == p[1..] + [n];
        if |p| > 1 {
          LookupAppend(child, p[1..], n);
        }
    }
  }

  /** In a well-formed tree every node a path reaches is well formed. */
  lemma {:induction false} LookupWellFormed(root: Entry, p: Path)
    requires WellFormed(root)
    ensures Lookup(root, p).Some? ==> WellFormed(Lookup(root, p).value)
    decreases |p|
  {
    if p != [] && root.Dir? {
      match Find(root.children, p[0])
      case None =>
      case Some(child) =>
        var i :| 0 <= i < |root.children| && root.children[i] == child;
        assert WellFormed(child);
        if |p| > 1 {
          LookupWellFormed(child, p[1..]);
        }
    }
  }

  /** The positions from `from` on of the entries that satisfy `keep`, in
      increasing order. */
  function IndicesWhere(kids: seq<Entry>, keep: Entry -> bool, from: nat): (idx: seq<int>)
    ensures forall i :: 0 <= i < |idx| ==> from <= idx[i] < |kids| && keep(kids[idx[i]])
    ensures forall i, j :: 0 <= i < j < |idx| ==> idx[i] < idx[j]
    ensures forall a :: from <= a < |kids| && keep(kids[a]) ==> a in idx
    decreases |kids| - from
  {
    if from >= |kids| then []
    else if keep(kids[from]) then [from] + IndicesWhere(kids, keep, from + 1)
    else IndicesWhere(kids, keep, from + 1)
  }

  /** `f` of each entry of the listing that satisfies `keep`, in listing
      order: a list comprehension `[f(k) for k in kids if keep(k)]`. */
  function Select<T(==, !new)>(kids: seq<Entry>, keep: Entry -> bool, f: Entry -> T): (r: seq<T>)
    ensures |r| <= |kids|
    ensures forall x :: x in r <==> exists i :: 0 <= i < |kids| && keep(kids[i]) && x == f(kids[i])
  {
    if |kids| == 0 then []
    else
      var rest := Select(kids[1..], keep, f);
      assert forall i :: 1 <= i < |kids| ==> kids[i] == kids[1..][i - 1];
      if keep(kids[0]) then [f(kids[0])] + rest else rest
  }

  /** The selection keeps listing order: its `i`-th element is `f` of the
      `i`-th entry that satisfies `keep`. */
  lemma SelectOrder<T(!new)>(kids: seq<Entry>, keep: Entry -> bool, f: Entry -> T)
    ensures var r, idx := Select(kids, keep, f), IndicesWhere(kids, keep, 0);
            |r| == |idx| && forall i :: 0 <= i < |r| ==> r[i] == f(kids[idx[i]])
  {
    assert kids[0..] == kids;
    SelectOrderFrom(kids, keep, f, 0);
  }

  lemma {:induction false} SelectOrderFrom<T(!new)>(kids: seq<Entry>, keep: Entry -> bool, f: Entry -> T, from: nat)
    requires from <= |kids|
    ensures SelectedAt(kids, f, Select(kids[from..], keep, f), IndicesWhere(kids, keep, from))
    decreases |kids| - from
  {
    if from < |kids| {
      SelectOrderFrom(kids, keep, f, from + 1);
      SelectStep(kids, keep, f, from);
      if keep(kids[from]) {
        var r', idx' := Select(kids[from + 1..], keep, f), IndicesWhere(kids, keep, from + 1);
        SelectedAtCons(kids, f, r', idx', from);
      }
    }
  }

  /** `r` is `f` of the entries of `kids` at the positions `idx`. */
  ghost predicate SelectedAt<T>(kids: seq<Entry>, f: Entry -> T, r: seq<T>, idx: seq<int>) {
    |r| == |idx| && forall i :: 0 <= i < |r| ==> 0 <= idx[i] < |kids| && r[i] == f(kids[idx[i]])
  }

  lemma SelectedAtCons<T>(kids: seq<Entry>, f: Entry -> T, r: seq<T>, idx: seq<int>, from: nat)
    requires from < |kids| && SelectedAt(kids, f, r, idx)
    ensures SelectedAt(kids, f, [f(kids[from])] + r, [from] + idx)
  {
  }

  lemma SelectStep<T(!new)>(kids: seq<Entry>, keep: Entry -> bool, f: Entry -> T, from: nat)
    requires from < |kids|
    ensures Select(kids[from..], keep, f) ==
              (if keep(kids[from]) then [f(kids[from])] else []) + Select(kids[from + 1..], keep, f)
  {
    assert kids[from..][1..] == kids[from + 1..];
    assert kids[from..][0] == kids[from];
  }

  /** An entry's name, as a function value. */
  function NameOf(e: Entry): string {
    e.name
  }

  /** The listing with the entry called `n` removed. */
  function Without(kids: seq<Entry>, n: string): (r: seq<Entry>)
    ensures forall m :: m != n ==> Find(r, m) == Find(kids, m)
    ensures Find(r, n) == None
    ensures forall i :: 0 <= i < |r| ==> r[i] in kids
  {
    if |kids| == 0 then []
    else if kids[0].name == n then Without(kids[1..], n)
    else [kids[0]] + Without(kids[1..], n)
  }

  /** The listing with the entry called `e.name` replaced by `e`. */
  function Replace(kids: seq<Entry>, e: Entry): (r: seq<Entry>)
    ensures |r| == |kids|
    ensures forall i :: 0 <= i < |r| ==> r[i] == if kids[i].name == e.name then e else kids[i]
  {
    if |kids| == 0 then []
    else (if kids[0].name == e.name then [e] else [kids[0]]) + Replace(kids[1..], e)
  }

  // ---------------------------------------------------------------------------
  // The files held by a tree

  /** Every file in the subtree, counted with multiplicity. */
  function FilesOf(e: Entry): multiset<Entry>
    decreases e, 1
  {
    match e
    case File(_, _) => multiset{e}
    case Dir(_, kids) => FilesIn(kids)
  }

  function FilesIn(kids: seq<Entry>): multiset<Entry>
    decreases kids, 0
  {
    if |kids| == 0 then multiset{} else FilesOf(kids[0]) + FilesIn(kids[1..])
  }

  lemma {:induction false} FilesInAppend(a: seq<Entry>, b: seq<Entry>)
    ensures FilesIn(a + b) == FilesIn(a) + FilesIn(b)
  {
    if |a| > 0 {
      assert (a + b)[1..] == a[1..] + b;
      FilesInAppend(a[1..], b);
    } else {
      assert a + b == b;
    }
  }

  /** Removing an entry removes exactly its files. */
  lemma {:induction false} FilesWithout(kids: seq<Entry>, i: int)
    requires UniqueNames(kids) && 0 <= i < |kids|
    ensures FilesIn(kids) == FilesIn(Without(kids, kids[i].name)) + FilesOf(kids[i])
  {
    if i == 0 {
      FilesWithoutFirst(kids);
    } else {
      var n := kids[i].name;
      assert kids[1..][i - 1] == kids[i];
      FilesWithout(kids[1..], i - 1);
      var w := Without(kids[1..], n);
      assert Without(kids, n) == [kids[0]] + w;
      FilesCons(kids[0], w);
      assert FilesIn(kids) == FilesOf(kids[0]) + FilesIn(kids[1..]);
      MultisetShift(FilesOf(kids[0]), FilesIn(w), FilesOf(kids[i]));
    }
  }

  lemma FilesCons(e: Entry, w: seq<Entry>)
    ensures FilesIn([e] + w) == FilesOf(e) + FilesIn(w)
  {
    assert ([e] + w)[1..] == w;
  }

  lemma FilesWithoutFirst(kids: seq<Entry>)
    requires UniqueNames(kids) && 0 < |kids|
    ensures FilesIn(kids) == FilesIn(Without(kids, kids[0].name)) + FilesOf(kids[0])
  {
    var n := kids[0].name;
    FirstNameUnique(kids);
    WithoutAbsent(kids[1..], n);
    assert Without(kids, n) == kids[1..];
    assert FilesIn(kids) == FilesOf(kids[0]) + FilesIn(kids[1..]);
    MultisetComm(FilesOf(kids[0]), FilesIn(kids[1..]));
  }

  lemma FirstNameUnique(kids: seq<Entry>)
    requires UniqueNames(kids) && 0 < |kids|
    ensures forall j :: 0 <= j < |kids[1..]| ==> kids[1..][j].name != kids[0].name
  {
    forall j | 0 <= j < |kids[1..]| ensures kids[1..][j].name != kids[0].name {
      assert kids[1..][j] == kids[j + 1];
    }
  }

  lemma {:induction false} WithoutAbsent(kids: seq<Entry>, n: string)
    requires forall i :: 0 <= i < |kids| ==> kids[i].name != n
    ensures Without(kids, n) == kids
  {
    if |kids| > 0 {
      WithoutAbsent(kids[1..], n);
    }
  }

  /** With unique names, replacing the entry at `i` is a splice. */
  lemma ReplaceAt(kids: seq<Entry>, i: int, e: Entry)
    requires UniqueNames(kids) && 0 <= i < |kids| && kids[i].name == e.name
    ensures Replace(kids, e) == kids[..i] + [e] + kids[i + 1..]
  {
  }

  lemma FilesSplit(kids: seq<Entry>, i: int)
    requires 0 <= i < |kids|
    ensures FilesIn(kids) == FilesIn(kids[..i]) + FilesOf(kids[i]) + FilesIn(kids[i + 1..])
  {
    var rest := kids[i..];
    assert kids == kids[..i] + rest;
    FilesInAppend(kids[..i], rest);
    assert rest[0] == kids[i] && rest[1..] == kids[i + 1..];
    assert FilesIn(rest) == FilesOf(rest[0]) + FilesIn(rest[1..]);
  }

  /** Replacing an entry swaps its files for the new entry's files. */
  lemma FilesReplace(kids: seq<Entry>, i: int, e: Entry)
    requires UniqueNames(kids) && 0 <= i < |kids| && kids[i].name == e.name
    ensures FilesIn(Replace(kids, e)) + FilesOf(kids[i]) == FilesIn(kids) + FilesOf(e)
  {
    var r := Replace(kids, e);
    ReplaceAt(kids, i, e);
    FilesSplit(kids, i);
    FilesSplit(r, i);
    assert r[..i] == kids[..i] && r[i + 1..] == kids[i + 1..];
  }

  lemma {:induction false} UniqueWithout(kids: seq<Entry>, n: string)
    requires UniqueNames(kids)
    ensures UniqueNames(Without(kids, n))
    ensures forall i :: 0 <= i < |kids| && kids[i].name != n ==> kids[i] in Without(kids, n)
  {
    if |kids| > 0 {
      UniqueWithout(kids[1..], n);
      var r := Without(kids, n);
      if kids[0].name != n {
        forall i, j | 0 <= i < j < |r|
          ensures r[i].name != r[j].name
        {
          if i == 0 {
            assert r[j] in kids[1..];
          }
        }
      }
      forall i | 0 <= i < |kids| && kids[i].name != n
        ensures kids[i] in r
      {
        if i > 0 {
          assert kids[i] == kids[1..][i - 1];
        }
      }
    }
  }

  lemma {:induction false} FindReplace(kids: seq<Entry>, e: Entry, m: string)
    ensures m != e.name ==> Find(Replace(kids, e), m) == Find(kids, m)
    ensures m == e.name && Find(kids, m).Some? ==> Find(Replace(kids, e), m) == Some(e)
  {
    if |kids| > 0 {
      FindReplace(kids[1..], e, m);
      assert Replace(kids, e)[1..] == Replace(kids[1..], e);
    }
  }

  lemma UniqueReplace(kids: seq<Entry>, e: Entry)
    requires UniqueNames(kids)
    ensures UniqueNames(Replace(kids, e))
  {
  }
}
